=== FILE: README.md ===
# Nichapp core, modelled in Dafny

Nichapp is a small social site. Founders of niche brands keep a profile and post short stories.
Supporters browse and like them, and admins moderate them. This project models the rules the
server handlers and page scripts follow. Documents are immutable records. Collections are
sequences. Every handler is a pure function from the stored collections and the request to the
reply and the new collections.

- **Data model** (`common.dfy`, `json.dfy`, `users.dfy`, `story_model.dfy`, `profile_model.dfy`,
  `relations.dfy`): users, stories, founder profiles, follows and likes. Each comes with its
  schema's defaults, trimming and lower-casing setters, `required` checks, enums and unique
  indexes. Request bodies are maps from keys to JSON values. Truthiness and `String(x)` follow
  JavaScript.
- **Shared machinery** (`text.dfy`, `ranking.dfy`, `pagination.dfy`, `query.dfy`):
  - ASCII trim, lower-case and split/join;
  - sorting as a stable insertion sort, specified as "some ranking" or "some top-k", because the
    store fixes no order among ties;
  - page and limit clamping, `skip`, `totalPages`;
  - equality filters built from query parameters.
- **Handlers**:
  - founders list and upsert (`founders_api.dfy`);
  - stories feed and create (`stories_api.dfy`);
  - discover rankings and the seven-day niche aggregation (`discover_api.dfy`);
  - registration (`register_api.dfy`);
  - the moderation handler (`admin_api.dfy`).
- **Page logic**:
  - the feed's relative time, optimistic like toggle and paging (`feed_page.dfy`);
  - the discover page's filters, label, card helpers and load-more state (`discover_page.dfy`,
    `client_paging.dfy`);
  - the profile editor's highlights round trip and request body (`profile_page.dfy`).

Inputs the code takes from outside become parameters:
- the authenticated user id (`Option<Id>`, `None` for a missing or invalid token);
- the current time `now` in milliseconds;
- the id a new document receives;
- the bcrypt hash of the password;
- the outcome of a client `fetch`;
- the demo data a page falls back on.

Mongoose behaviour is modelled as follows:
- setters run on create and on update;
- validators run on create only;
- an `undefined` value in an update leaves the stored field as it was.

## Model

| member | source | states |
|---|---|---|
| Pagination.ClampPage | pages/api/founders/index.ts:30 | page is at least 1; a missing, non-numeric, zero or negative page gives 1, and a positive page is kept |
| Pagination.ClampLimit | pages/api/founders/index.ts:31-34 | limit lies in [1, 50]; missing, non-numeric or 0 gives 10, negatives give 1, values above 50 give 50, and values in range are kept |
| Pagination.Skip | pages/api/founders/index.ts:35 | skip is never negative and is 0 exactly on page 1 |
| Pagination.TotalPages | pages/api/founders/index.ts:58 | at least one page; one page for no documents; otherwise the least page count whose pages hold all documents |
| Pagination.PageItems | pages/api/founders/index.ts:50-54 | a page holds at most `limit` documents, the ones at positions skip, skip+1, …, and is empty exactly when skip reaches past the result |
| Pagination.PageOfItem | pages/api/founders/index.ts:35-58 | the document at position k is on page k/limit + 1, at offset k mod limit, and that page is within totalPages |
| Pagination.EveryItemOnSomePage | pages/api/founders/index.ts:35-58 | every document appears on some page between 1 and totalPages |
| Pagination.PageNonEmptyIff | pages/api/founders/index.ts:35-58 | for a non-empty result, a page is non-empty exactly when it is at most totalPages |
| FoundersApi.SelectSort | pages/api/founders/index.ts:9-12 | the followers/stories/age ordering is chosen exactly when `sort` is "top"; anything else, or no sort, gives newest first |
| FoundersApi.OrderIsPreorder | pages/api/founders/index.ts:9-12 | both sort specifications are total preorders, so sorting by them is well defined |
| FoundersApi.FounderFilter | pages/api/founders/index.ts:37-44 | the filter holds `nicheCategoryId` exactly when a niche was given and `region` exactly when a region was given, with those values, and no other key |
| FoundersApi.FounderFilterSemantics | pages/api/founders/index.ts:42-50 | a profile passes the filter exactly when it has the given niche (if any) and the given region (if any) |
| FoundersApi.Matches | pages/api/founders/index.ts:42-50 | what `find(filter)` accepts: a profile passes when it has the filter's niche, if the filter has one, and the filter's region, if it has one |
| FoundersApi.Ranked | pages/api/founders/index.ts:50-51 | the matching profiles, a permutation of them, sorted by the requested order |
| FoundersApi.ListFounders | pages/api/founders/index.ts:29-60 | page ≥ 1 and totalPages ≥ 1; at most `limit` items, all matching profiles from the store, in the requested order; a non-empty page is within totalPages |
| FoundersApi.ListFoundersUnfold | pages/api/founders/index.ts:30-60 | the answer reports the clamped page, holds that page of the ranking of matching profiles, and counts pages over all matches |
| FoundersApi.EveryMatchIsOnSomePage | pages/api/founders/index.ts:29-60 | every matching profile is returned by some page from 1 to totalPages |
| FoundersApi.PostFounder | pages/api/founders/index.ts:67-110 | 401 without a token; 400 when aboutFounder is not a non-empty string or nicheCategoryId is missing; 403 unless the user is a founder; for a founder with valid input, 200 exactly when nicheCategoryId is a string and 500 otherwise. On success the owner's profile holds the sent niche, the trimmed aboutFounder, the sanitised highlights, and the trimmed brandName/region when sent, else the stored ones. An existing profile keeps its id, stats and createdAt, and a new one has the fresh id, zero stats and the current time. Every other profile is unchanged, and a refusal changes nothing |
| FoundersApi.Upsert | pages/api/founders/index.ts:91-103 | the owner's first profile is updated in place, or a profile with default stats is appended; an unsent brandName or region keeps its stored value; afterwards that profile is the owner's first match, and other owners' profiles are unchanged |
| FoundersApi.UpsertKeepsFirstOwner | pages/api/founders/index.ts:99-103 | after the upsert, the profile found for the owner is the one just written |
| FoundersApi.PostFounderIgnoresOtherFields | pages/api/founders/index.ts:73 | the handler's outcome depends only on the five body keys it destructures |
| Json.StringsOrEmpty | pages/api/founders/index.ts:79-82 | an array of strings is kept element for element; anything else becomes [] |
| Json.SanitiseStringArray | pages/api/stories/index.ts:72-75 | sanitising an array of strings gives back exactly those strings |
| StoriesApi.StoryFilter | pages/api/stories/index.ts:34-40 | the filter holds exactly the supplied keys among nicheCategoryId, founderProfileId and region, with their values, and never a status |
| StoriesApi.StoryFilterSemantics | pages/api/stories/index.ts:37-45 | a story passes exactly when each supplied parameter equals the story's field |
| StoriesApi.Matches | pages/api/stories/index.ts:37-45 | what `find(filter)` accepts: a story passes when every key present in the filter equals the story's field |
| StoriesApi.Ranked | pages/api/stories/index.ts:45-46 | the matching stories, a permutation of them, newest first |
| StoriesApi.ListStories | pages/api/stories/index.ts:26-54 | page ≥ 1 and totalPages ≥ 1; at most `limit` items, all matching stories, createdAt non-increasing; a non-empty page is within totalPages |
| StoriesApi.ListStoriesUnfold | pages/api/stories/index.ts:27-54 | the answer reports the clamped page, holds that page of the newest-first ranking of matching stories, and counts pages over all matches |
| StoriesApi.TotalPagesCountsMatches | pages/api/stories/index.ts:50-53 | totalPages is computed from the number of matching stories |
| StoriesApi.EveryMatchIsOnSomePage | pages/api/stories/index.ts:26-54 | every matching story is returned by some page from 1 to totalPages |
| StoriesApi.StoryRegion | pages/api/stories/index.ts:95 | a truthy request region wins; otherwise the founder profile's region, or none |
| StoriesApi.PostStory | pages/api/stories/index.ts:61-107 | 401 without a token; 400 unless text is a non-empty string and nicheCategoryId is present; 403 for a non-founder; 400 without a profile. On success the story is appended and 201 is returned, and a refusal changes nothing |
| StoriesApi.PostStorySucceeds | pages/api/stories/index.ts:61-107 | 201 exactly when there is a token, the text is a non-empty string that is not only whitespace, nicheCategoryId is a string, the user is a founder with a profile, and the region is absent or castable to a string |
| StoriesApi.PostStoryRegion | pages/api/stories/index.ts:95 | a created story carries the trimmed request region when one was sent, else the profile's region |
| StoriesApi.PostStoryBumpsStoryCountOnce | pages/api/stories/index.ts:98-100 | creating a story raises its founder's storyCount by exactly 1, leaves every other profile's count unchanged, and adds exactly one story |
| StoriesApi.PostStoryNeedsProfile | pages/api/stories/index.ts:84-87 | a founder without a profile is answered 400, and no story is created and no count is changed |
| StoriesApi.BlankTextIsServerError | pages/api/stories/index.ts:68-70 | whitespace-only text passes the handler's check but fails the schema's `required` after trimming: the answer is 500 and nothing is stored |
| StoryModel.NewStory | models/Story.ts:20-76 | a new story has zero like, comment and view counts, status published, trimmed text and mediaUrls defaulting to []; it is rejected exactly when the text is blank after trimming |
| StoryModel.ParseStatusName | models/Story.ts:64-70 | the three status names parse back to their statuses |
| StoryModel.ParseStatus | models/Story.ts:66 | a string is accepted exactly when it is one of the three status names, and parses to the status of that name |
| StoryModel.NewerFirstIsPreorder | pages/api/stories/index.ts:46 | newest-first is a total preorder |
| ProfileModel.NewProfile | models/FounderProfile.ts:19-68 | a new profile keeps the given id, owner, niche and creation time; it has zero storyCount, followersCount and profileViews, highlights default to [], and aboutFounder, brandName and region are the trimmed inputs (absent stays absent); it is schema-valid when aboutFounder is not blank |
| ProfileModel.BumpStoryCount | pages/api/stories/index.ts:98-100 | `$inc` adds 1 to the storyCount of the profile with that id and changes nothing else |
| ProfileModel.BumpStoryCountExact | pages/api/stories/index.ts:98-100 | with unique profile ids, the target's storyCount grows by exactly 1 and every other profile's count is unchanged |
| ProfileModel.OrdersArePreorders | pages/api/founders/index.ts:9-12 | the "top" and "new" orderings are total preorders |
| Users.CreateUser | User.ts:17-50 | creation succeeds exactly when the trimmed email, the hash and the trimmed displayName are non-empty and the email is unused. The stored email is lower-cased and trimmed, and the stored displayName is trimmed. A taken email gives a duplicate-key error |
| Users.CreateUserKeepsEmailsUnique | User.ts:19-25 | creating a user keeps every email distinct |
| Users.ParseRoleName | User.ts:31-36 | the three role names parse back to their roles |
| Users.ParseRole | User.ts:33 | a string is accepted exactly when it is one of the three role names, and parses to the role of that name |
| Users.View | pages/api/auth/register.ts:51 | the returned user has every field of the stored user except the password hash |
| RegisterApi.RequestedRole | pages/api/auth/register.ts:34-47 | a validated, truthy role names one of the three roles; a missing role is left to the default |
| RegisterApi.Register | pages/api/auth/register.ts:16-65 | 405 for anything but POST; 400 when email, password or displayName is not a non-empty string or the role is not allowed; 409 when the email is taken. On success: 201, the email lower-cased and trimmed, the name trimmed, the role defaulting to supporter, and no password hash in the answer |
| RegisterApi.RegisterSucceeds | pages/api/auth/register.ts:34-56 | a well-formed request for an unused email with no role or one of the three role names succeeds, and the new user has the requested role, else supporter |
| RegisterApi.RegisterDuplicateIsConflict | pages/api/auth/register.ts:58-60 | an email already held by a user, in any letter case and with any surrounding blanks, is answered 409 and nothing is stored |
| RegisterApi.RegisterKeepsEmailsUnique | pages/api/auth/register.ts:43-48 | registration keeps every email distinct |
| AdminApi.RequireAdmin | pages/api/admin/stories.ts:9-24 | 401 exactly when there is no token; success exactly when the token's user exists and is an admin; otherwise 403 |
| AdminApi.AdminFilter | pages/api/admin/stories.ts:7-49 | the filter holds a status exactly when a status was given and is one of the three names |
| AdminApi.ListForAdmin | pages/api/admin/stories.ts:52 | the stories passing the status filter, a permutation of them, newest first |
| AdminApi.ListForAdminContents | pages/api/admin/stories.ts:45-53 | the list is newest first and holds a story exactly when the story exists and, if a valid status was requested, has that status |
| AdminApi.PatchStatus | pages/api/admin/stories.ts:60-84 | 400 without id or without one of the three statuses; with both valid, 500 when the id is not a string, 404 exactly when no story has the id, and 200 when one does. On success one story with that id has its status replaced and nothing else changes |
| AdminApi.ValidStatus | pages/api/admin/stories.ts:65 | `STATUSES.includes(status)`: the body's status is a string that names one of the three statuses |
| AdminApi.PatchChangesOnlyStatus | pages/api/admin/stories.ts:70-74 | after a PATCH every story keeps all its fields except the status of the one addressed, which is the requested status |
| AdminApi.HandleAdmin | pages/api/admin/stories.ts:9-39 | 405 for anything but GET and PATCH; then 401 without a token and 403 for a non-admin, both before any query; GET lists and PATCH updates |
| AdminApi.OnlyAdminsChangeStories | pages/api/admin/stories.ts:9-84 | any change to the stories comes from a PATCH by an existing admin |
| Relations.AtMostOnePerPair | models/Follow.ts:31 | under the unique index each pair occurs at most once, and exactly once when present |
| Relations.InsertUnique | models/Follow.ts:31 | inserting a document whose pair is present is a duplicate-key error; otherwise the document is appended and uniqueness is kept |
| Relations.CreateFollow | models/Follow.ts:10-31 | a follow without followerId or followingId is a validation error; a repeated pair is a duplicate-key error; otherwise it is appended, keeping pairs unique |
| Relations.CreateLike | models/Like.ts:10-31 | a like without storyId or userId is a validation error; a repeated pair is a duplicate-key error; otherwise it is appended, keeping pairs unique |
| Relations.FollowUniquenessIsPerPair | models/Follow.ts:16-31 | a follower who already follows others, of a founder already followed by others, can still follow that founder |
| Relations.LikeUniquenessIsPerPair | models/Like.ts:16-31 | a user who already likes other stories can like a story already liked by others |
| Relations.DuplicateFollowRefused | models/Follow.ts:31 | following the same founder twice is refused |
| Relations.DuplicateLikeRefused | models/Like.ts:31 | liking the same story twice is refused |
| DiscoverApi.TrendingFounders | pages/api/discover.ts:17-20 | the five best profiles under the followers/stories/age order, or all of them when there are fewer |
| DiscoverApi.TrendingFoundersOrder | pages/api/discover.ts:7-20 | at most five profiles, in lexicographic order of followersCount, storyCount and createdAt, all descending; a profile left out has no more followers than any listed one |
| DiscoverApi.RecentFounders | pages/api/discover.ts:21-24 | the five newest profiles, or all of them when there are fewer |
| DiscoverApi.RecentFoundersOrder | pages/api/discover.ts:21-24 | at most five profiles, newest first; none left out is newer than one listed |
| DiscoverApi.Group | pages/api/discover.ts:32 | one entry per distinct niche id, counting its occurrences |
| DiscoverApi.GroupSum | pages/api/discover.ts:32 | the group counts add up to the number of stories grouped |
| DiscoverApi.NicheAggregate | pages/api/discover.ts:30-35 | the top five groups by story count of the in-window stories |
| DiscoverApi.InWindow | pages/api/discover.ts:27-31 | the `$match` stage keeps a story created at or after seven days before now |
| DiscoverApi.Recent | pages/api/discover.ts:31 | the stories `$match` lets through: every one is in the window and stored, every stored in-window story is there, and there are no more than there were stories |
| DiscoverApi.CountRecent | pages/api/discover.ts:27-32 | counting a niche among the in-window stories equals counting the stories of that niche with createdAt ≥ now − 7 days |
| DiscoverApi.NicheAggregateCounts | pages/api/discover.ts:27-35 | at most five entries with distinct niche ids, counts non-increasing, each count positive and equal to that niche's stories in the window |
| DiscoverApi.OmittedNicheHasNoMore | pages/api/discover.ts:33-34 | a niche with stories in the window that is not listed has no more of them than any listed niche |
| DiscoverApi.NicheAggregateSum | pages/api/discover.ts:31-34 | the listed counts add up to at most the number of in-window stories |
| DiscoverApi.AggregateIds | pages/api/discover.ts:37 | the ids looked up are exactly the non-empty niche ids of the aggregation |
| DiscoverApi.JoinNiches | pages/api/discover.ts:38-47 | one entry per aggregation entry, in the same order, with its id and count |
| DiscoverApi.FindAmongFetched | pages/api/discover.ts:38-40 | looking a niche up among those fetched by `$in` finds what looking it up among all niches finds |
| DiscoverApi.JoinNichesNames | pages/api/discover.ts:39-47 | each entry's name and slug are those of the matching niche, or undefined when none matches |
| DiscoverApi.JoinNichesAllNames | pages/api/discover.ts:39-47 | every joined entry is named from the first niche with its id, or carries no name and slug |
| DiscoverApi.HandleDiscover | pages/api/discover.ts:9-58 | the answer combines the top five founders by followers, stories and age, the five newest founders, and one trending niche per aggregation entry, in the same order and with the same id and count. Counts are exact in-window story counts, non-increasing, with distinct ids, and each entry has its niche's name and slug, or none |
| FeedPage.RelativeTime | pages/feed.tsx:30-41 | exactly one unit is chosen: seconds under a minute, minutes under an hour, hours under a day, days otherwise. The number shown is in range for its unit and is the floor of the elapsed time in that unit |
| FeedPage.FloorNest | pages/feed.tsx:33-39 | flooring seconds, then minutes, then hours equals flooring the milliseconds once by the whole unit |
| FeedPage.AdjustLikes | pages/feed.tsx:137-146 | only the stories with that id change, and their likeCount moves by the delta, floored at 0 |
| FeedPage.ToggleLike | pages/feed.tsx:128-146 | membership of the id in likedIds flips and other ids keep theirs; that story's count goes up by 1 on like and down by 1, floored at 0, on unlike; other stories are unchanged |
| FeedPage.LikeVerb | pages/feed.tsx:130 | the request method is `DELETE` exactly when the story is currently liked, else `POST` |
| FeedPage.ToggleSendsVerb | pages/feed.tsx:128-131 | the toggle unlikes a story the user had liked and likes any other |
| FeedPage.RevertLike | pages/feed.tsx:149-166 | membership is put back to its pre-toggle value and the count change is undone, floored at 0 |
| FeedPage.LikeCountsStayNonNegative | pages/feed.tsx:142-162 | neither the toggle nor the revert makes a likeCount negative |
| FeedPage.RevertRestoresLikedIds | pages/feed.tsx:129-156 | a toggle followed by its revert leaves likedIds exactly as it was |
| FeedPage.RevertRestoresStories | pages/feed.tsx:137-166 | a toggle followed by its revert restores every count, provided a liked story shows at least one like |
| FeedPage.UnlikeFromZeroIsNotRestored | pages/feed.tsx:142-162 | an unlike from 0 followed by a revert leaves the count at 1, not 0: the floor loses the decrement |
| FeedPage.FetchStories | pages/feed.tsx:57-84 | an empty answer shows the demo stories (appended after page 1) with page and totalPages reset to 1; otherwise page 1 replaces and later pages append; a successful answer clears the error; a failure on page 1 shows the demo, and a later failure only shows the error |
| FeedPage.EmptyFetchHidesLoadMore | pages/feed.tsx:65-276 | after an empty answer "Load more" is hidden |
| FeedPage.LoadMoreKeepsShownStories | pages/feed.tsx:70-279 | loading the next page never drops or reorders a story already shown |
| FeedPage.FetchedPageDecidesLoadMore | pages/feed.tsx:69-276 | after a non-empty answer "Load more" is shown exactly when the reported page is below the reported totalPages |
| ClientPaging.LoadMore | pages/discover.tsx:111-117 | the next page is requested exactly when page < totalPages and nothing is loading, and it is page + 1, at most totalPages |
| ClientPaging.HasMore | pages/discover.tsx:111 | `hasMore`: there is a next page exactly when the current page is below totalPages |
| ClientPaging.ReportedPage | pages/discover.tsx:87 | the answer's page when it is truthy, else the page requested |
| ClientPaging.ReportedTotal | pages/discover.tsx:88 | the answer's totalPages when it is truthy, else 1 |
| DiscoverPage.LoadFounders | pages/discover.tsx:69-98 | an empty first page or a failed first request shows the demo founders on one page; otherwise append concatenates and a fresh load replaces; a failed later request changes nothing |
| DiscoverPage.HandleLoadMore | pages/discover.tsx:113-117 | nothing happens without a next page or while loading; otherwise the next page is loaded and appended, as `loadFounders(page + 1, true)` |
| DiscoverPage.LoadMoreAppends | pages/discover.tsx:86-117 | loading more keeps every founder already shown, in place, and adds the answer's items after them |
| DiscoverPage.FilterChangeReplaces | pages/discover.tsx:81-109 | a filter change reloads page 1 and the list becomes the answer's items, or the demo when there are none |
| DiscoverPage.FromSelect | pages/discover.tsx:180-192 | the empty option clears the filter; any other option sets it |
| DiscoverPage.SelectNiche | pages/discover.tsx:180 | choosing a niche option sets the niche filter (the empty option clears it) and keeps the region filter |
| DiscoverPage.SelectRegion | pages/discover.tsx:192 | choosing a region option sets the region filter (the empty option clears it) and keeps the niche filter |
| DiscoverPage.SelectRoundTrip | pages/discover.tsx:179-192 | the select shows the option just chosen, and choosing the empty option clears the filter |
| DiscoverPage.FilteredLabel | pages/discover.tsx:119-125 | "All founders" exactly when no filter is set; "Niche: n" or "Region: g" when only one is set; "Niche: n · Region: g" when both are |
| DiscoverPage.LabelAfterSelects | pages/discover.tsx:119-125 | choosing a niche from cleared filters labels the list with that niche alone (or "All founders" for the empty option), and choosing a region then appends it after " · " |
| DiscoverPage.Snippet | pages/discover.tsx:129-130 | at most 80 characters; an about text of at most 80 characters is unchanged, a longer one becomes its first 77 characters and "..." |
| DiscoverPage.SnippetIdempotent | pages/discover.tsx:130 | shortening a snippet again changes nothing |
| DiscoverPage.Initial | pages/discover.tsx:128 | the upper-cased first character of name, else of brandName, else "?"; never a lower-case letter |
| ProfilePage.ParseHighlights | pages/me/profile.tsx:60-62 | undefined or empty text gives []; every parsed highlight is non-empty, trimmed and free of newlines |
| ProfilePage.TrimAndDropEmpty | pages/me/profile.tsx:61 | `.map(trim).filter(Boolean)`: no more entries than lines, each trimmed and non-empty, and newline-free when the lines are |
| ProfilePage.HighlightsRoundTrip | pages/me/profile.tsx:40-62 | joining non-empty, trimmed, newline-free highlights with newlines and parsing the text gives the same highlights |
| ProfilePage.HighlightsIdempotent | pages/me/profile.tsx:40-62 | parsing, joining and parsing again gives the first parse |
| ProfilePage.LoadForm | pages/me/profile.tsx:37-46 | the form shows the profile's brandName, aboutFounder, niche and region, with highlights one per line; the social fields stay empty because profiles store none |
| ProfilePage.LoadFromList | pages/me/profile.tsx:32-36 | a form is loaded exactly when the caller's profile is among the listed items |
| ProfilePage.LoadThenSaveKeepsHighlights | pages/me/profile.tsx:40-62 | loading a profile with clean highlights and saving the form untouched stores the same highlights |
| ProfilePage.SocialLinks | pages/me/profile.tsx:69-73 | socialLinks has exactly the instagram, tiktok and linkedin keys that are set, with their values |
| ProfilePage.SubmitBody | pages/me/profile.tsx:66-74 | the body carries the parsed highlights, the social links object, and each other form field that is set |
| ProfilePage.SubmitStoresParsedHighlights | pages/me/profile.tsx:60-68 | a saved profile holds exactly the highlights parsed from the text box |
| ProfilePage.SocialLinksAreIgnored | pages/me/profile.tsx:69-73 | the social links sent do not change what the founders handler answers or stores |
| Text.TrimIdempotent | models/Story.ts:37 | trimming a trimmed text changes nothing |
| Text.Trim | models/Story.ts:37 | the `trim` setter: the result has no whitespace at either end, is empty exactly when the input is all whitespace, leaves a trimmed input unchanged, and uses only the input's characters |
| Text.TrimLowerCommute | User.ts:23-24 | trimming and lower-casing commute, so the order of the email setters does not matter |
| Text.Lower | User.ts:23 | the `lowercase` setter: same length, no upper-case ASCII letter left |
| Text.SplitJoin | pages/me/profile.tsx:40-61 | splitting a join of separator-free pieces gives the pieces back |
| Text.Split | pages/me/profile.tsx:61 | `split('\n')`: at least one piece, none holding the separator, and joining the pieces gives the input back |
| Ranking.Sort | pages/api/stories/index.ts:46 | the result is a permutation of the input, sorted by the order |
| Ranking.TakeOfRankingIsTop | pages/api/discover.ts:19-34 | the first k elements of a ranking are a top-k selection: none left out ranks above one kept |
| Query.Select | pages/api/founders/index.ts:50 | `find(filter)` keeps exactly the documents the filter accepts, each as many times as it occurs |
| Query.SelectAppend | pages/api/founders/index.ts:50 | selection keeps order: selecting from a concatenation is the concatenation of the selections |
| Query.AddIfSupplied | pages/api/founders/index.ts:43-44 | a key is added exactly when its value is supplied, and no other key changes |

## Left out

- The GET/POST dispatch of pages/api/founders/index.ts:18-26 and pages/api/stories/index.ts:15-24 (405 for other methods) is not modelled; the registration and moderation handlers' dispatch is.
- bcrypt hashing and JWT signing (pages/api/auth/register.ts:42, 50) are foreign library calls: the hash is a parameter and the token is not produced.
- Database failures, and the 500 answers they lead to, are not modelled. The 500 answers that follow from the data are modelled: a failed ObjectId cast, and a schema validation failure after trimming.
- ObjectId formats are not modelled: an id is any string, and a cast succeeds for string values only.
- Concurrency is not modelled: `Promise.all`, interleaved requests and the race between creating a story and `$inc` on the profile.
- The server like and follow handlers are not part of this model; only the unique-pair constraints of models/Follow.ts and models/Like.ts are.
- createdAt and updatedAt: createdAt is the `now` parameter, and updatedAt is not modelled.
- FeedPage.RelativeTime returns the unit and number; the template string `"5m ago"` is not built.
- JavaScript numbers are unbounded integers here, so NaN and floating-point values in bodies and query strings do not occur. `parseInt` is an optional integer.
- Lengths count characters, not UTF-16 code units. Trimming and case mapping cover ASCII only.
- The seven-day window is exactly 7 × 86 400 000 ms. `setDate(getDate() - 7)` in local time differs across a daylight-saving change.
- Demo data contents, `loadDiscover`'s fallback and event logging are not modelled; the demo lists are parameters.
- A `fetch` that throws inside `loadFounders` (pages/discover.tsx:69-98) is not caught there. It is modelled as leaving the list unchanged.
- ProfilePage.LoadFromList looks only at the first page of the founders list that pages/me/profile.tsx:32-35 fetches. A profile beyond it is not found, as in the source.
- FoundersApi.SelectSort treats only "top" and "new" as keys. A key naming an inherited object property is not modelled.
- Mongo's order among equal sort keys is unspecified. The list members are stated for any stable ranking, and the aggregation ties for any top-five choice.

=== FILE: admin_api.dfy ===
/** The moderation handler (pages/api/admin/stories.ts): list stories by status and change a story's status. */
module AdminApi {
  import opened Common
  import opened Json
  import opened Query
  import opened Ranking
  import opened Users
  import opened StoryModel
  import StoriesApi

  /** `requireAdmin`: 401 without a token, 403 unless the token's user exists and is an admin. */
  function RequireAdmin(users: seq<User>, auth: Option<Id>): (r: Result<User, nat>)
    ensures r.Failure? ==> r.error == Unauthorized || r.error == Forbidden
    ensures r.Failure? && r.error == Unauthorized <==> auth.None?
    ensures r.Success? <==> auth.Some? && FindUser(users, auth.value).Some? && FindUser(users, auth.value).value.role == Admin
    ensures r.Success? ==> r.value.id == auth.value && r.value.role == Admin && r.value in users
  {
    if auth.None? then Failure(Unauthorized)
    else
      var user := FindUser(users, auth.value);
      if user.None? || user.value.role != Admin then Failure(Forbidden)
      else Success(user.value)
  }

  /** `if (status && STATUSES.includes(status)) filter.status = status`. */
  function AdminFilter(status: Option<string>): (f: Filter)
    ensures Status in f <==> Supplied(status) && ParseStatus(status.value).Some?
    ensures Status in f ==> f[Status] == status.value
    ensures NicheCategoryId !in f && FounderProfileId !in f && Region !in f
  {
    if Supplied(status) && ParseStatus(status.value).Some? then map[Status := status.value] else map[]
  }

  /** `handleGet` after the gate: `Story.find(filter).sort({ createdAt: -1 })`. */
  function ListForAdmin(stories: seq<Story>, status: Option<string>): (r: seq<Story>)
    ensures IsRanking(NewerFirst, r, Select(stories, (s: Story) => StoriesApi.Matches(AdminFilter(status), s)))
  {
    NewerFirstIsPreorder();
    Sort(NewerFirst, Select(stories, (s: Story) => StoriesApi.Matches(AdminFilter(status), s)))
  }

  /**
   * The admin list holds the stories of the requested status when that status is one of the three
   * names, and every story otherwise; newest first either way.
   */
  lemma ListForAdminContents(stories: seq<Story>, status: Option<string>, s: Story)
    ensures var r := ListForAdmin(stories, status);
      && (forall i, j :: 0 <= i < j < |r| ==> r[i].createdAt >= r[j].createdAt)
      && (s in r <==>
            s in stories && (Supplied(status) && ParseStatus(status.value).Some? ==> s.status == ParseStatus(status.value).value))
  {
    var r := ListForAdmin(stories, status);
    var sel := Select(stories, (x: Story) => StoriesApi.Matches(AdminFilter(status), x));
    assert s in r <==> s in sel by {
      assert s in r <==> s in multiset(r);
      assert s in sel <==> s in multiset(sel);
    }
    if Supplied(status) && ParseStatus(status.value).Some? {
      ParseStatusName(s.status);
    }
  }

  /** The position of the story `findByIdAndUpdate(id, ...)` touches. */
  function IndexOfStory(stories: seq<Story>, id: Id): (r: Option<nat>)
    ensures r.Some? ==> r.value < |stories| && stories[r.value].id == id
    ensures r.None? <==> forall k :: 0 <= k < |stories| ==> stories[k].id != id
  {
    if |stories| == 0 then None
    else if stories[0].id == id then Some(0)
    else
      var rest := IndexOfStory(stories[1..], id);
      if rest.Some? then Some(rest.value + 1)
      else
        assert forall k :: 1 <= k < |stories| ==> stories[k].id == stories[1..][k - 1].id;
        None
  }

  /** `STATUSES.includes(status)`: the body's status is one of the three names. */
  predicate ValidStatus(body: Body) {
    Field(body, "status").Some? && Field(body, "status").value.JStr? && ParseStatus(Field(body, "status").value.s).Some?
  }

  /**
   * `handlePatch` after the gate: 400 unless `id` is truthy and `status` is one of the three
   * names, 500 when `id` cannot be cast to an ObjectId, 404 for an unknown id, else the story
   * with only its status changed.
   */
  function PatchStatus(stories: seq<Story>, body: Body): (out: (Reply<Story>, seq<Story>))
    ensures !Given(Field(body, "id")) ==> out.0 == Refused(BadRequest)
    ensures !ValidStatus(body) ==> out.0 == Refused(BadRequest)
    ensures out.0.Refused? ==> out.1 == stories
    ensures out.0 == Refused(NotFound) ==>
      && Field(body, "id").Some? && Field(body, "id").value.JStr?
      && forall k :: 0 <= k < |stories| ==> stories[k].id != Field(body, "id").value.s
    ensures Given(Field(body, "id")) && ValidStatus(body) && !Field(body, "id").value.JStr? ==> out.0 == Refused(ServerError)
    ensures Given(Field(body, "id")) && ValidStatus(body) && Field(body, "id").value.JStr? ==>
      && (out.0 == Refused(NotFound) <==> forall k :: 0 <= k < |stories| ==> stories[k].id != Field(body, "id").value.s)
      && ((exists k :: 0 <= k < |stories| && stories[k].id == Field(body, "id").value.s) ==> out.0.Done?)
    ensures out.0.Done? ==>
      && out.0.status == Ok
      && Field(body, "id").value.JStr? && Field(body, "status").value.JStr?
      && |out.1| == |stories|
      && exists k :: (&& 0 <= k < |stories|
                      && stories[k].id == Field(body, "id").value.s
                      && out.0.body == stories[k].(status := ParseStatus(Field(body, "status").value.s).value)
                      && out.1 == stories[k := out.0.body])
  {
    var id := Field(body, "id");
    var status := Field(body, "status");
    if !Given(id) || !Given(status) || !status.value.JStr? || ParseStatus(status.value.s).None? then
      (Refused(BadRequest), stories)
    else
      var key := CastId(id.value);
      if key.None? then (Refused(ServerError), stories)
      else
        match IndexOfStory(stories, key.value)
        case None => (Refused(NotFound), stories)
        case Some(k) =>
          var updated := stories[k].(status := ParseStatus(status.value.s).value);
          (Done(Ok, updated), stories[k := updated])
  }

  /** A status change touches one story and, in it, only the status. */
  lemma PatchChangesOnlyStatus(stories: seq<Story>, body: Body, j: int)
    requires PatchStatus(stories, body).0.Done? && 0 <= j < |stories|
    ensures var out := PatchStatus(stories, body);
      && out.1[j].id == stories[j].id && out.1[j].text == stories[j].text
      && out.1[j].likeCount == stories[j].likeCount && out.1[j].createdAt == stories[j].createdAt
      && out.1[j] == stories[j].(status := out.1[j].status)
      && (stories[j].id != Field(body, "id").value.s ==> out.1[j] == stories[j])
      && StatusName(out.0.body.status) == Field(body, "status").value.s
  {
    var out := PatchStatus(stories, body);
    var k :| && 0 <= k < |stories| && stories[k].id == Field(body, "id").value.s
             && out.0.body == stories[k].(status := ParseStatus(Field(body, "status").value.s).value)
             && out.1 == stories[k := out.0.body];
  }

  /** The answer of the whole handler. */
  datatype Answer = Listed(stories: seq<Story>) | Updated(story: Story)

  /**
   * The handler: the method is checked first (405 for anything but GET and PATCH), then the
   * admin gate, then the chosen operation.
   */
  function HandleAdmin(verb: Method, users: seq<User>, stories: seq<Story>, auth: Option<Id>,
                       status: Option<string>, body: Body): (out: (Reply<Answer>, seq<Story>))
    ensures verb != Get && verb != Patch ==> out == (Refused(MethodNotAllowed), stories)
    ensures (verb == Get || verb == Patch) && auth.None? ==> out == (Refused(Unauthorized), stories)
    ensures (verb == Get || verb == Patch) && auth.Some? && RequireAdmin(users, auth).Failure? ==>
      out == (Refused(Forbidden), stories)
    ensures out.0.Done? ==> RequireAdmin(users, auth).Success?
    ensures verb == Get && RequireAdmin(users, auth).Success? ==>
      out == (Done(Ok, Listed(ListForAdmin(stories, status))), stories)
    ensures verb == Patch && RequireAdmin(users, auth).Success? ==>
      out.1 == PatchStatus(stories, body).1 && out.0.status == PatchStatus(stories, body).0.status
  {
    if verb != Get && verb != Patch then (Refused(MethodNotAllowed), stories)
    else
      match RequireAdmin(users, auth)
      case Failure(code) => (Refused(code), stories)
      case Success(_) =>
        if verb == Get then (Done(Ok, Listed(ListForAdmin(stories, status))), stories)
        else
          var (reply, next) := PatchStatus(stories, body);
          match reply
          case Refused(code) => (Refused(code), next)
          case Done(code, story) => (Done(code, Updated(story)), next)
  }

  /** Only an existing admin can change anything. */
  lemma OnlyAdminsChangeStories(verb: Method, users: seq<User>, stories: seq<Story>, auth: Option<Id>,
                                status: Option<string>, body: Body)
    requires HandleAdmin(verb, users, stories, auth, status, body).1 != stories
    ensures verb == Patch && auth.Some?
    ensures FindUser(users, auth.value).Some? && FindUser(users, auth.value).value.role == Admin
  {
  }
}

=== FILE: client_paging.dfy ===
/** The "load more" paging state the feed and discover pages (pages/feed.tsx, pages/discover.tsx) keep. */
module ClientPaging {
  import opened Common

  /** `hasMore`, and the condition under which the feed shows its "Load more" button. */
  predicate HasMore(page: int, totalPages: int) {
    page < totalPages
  }

  /** `handleLoadMore`: the page to request, if any. */
  function LoadMore(page: int, totalPages: int, loading: bool): (r: Option<int>)
    ensures r.Some? <==> HasMore(page, totalPages) && !loading
    ensures r.Some? ==> r.value == page + 1 && r.value <= totalPages
  {
    if HasMore(page, totalPages) && !loading then Some(page + 1) else None
  }

  /** `data.page || nextPage`: a missing or zero page falls back to the one requested. */
  function ReportedPage(reported: Option<int>, requested: int): (r: int)
    ensures reported.Some? && reported.value != 0 ==> r == reported.value
    ensures reported.None? || reported.value == 0 ==> r == requested
  {
    if reported.Some? && reported.value != 0 then reported.value else requested
  }

  /** `data.totalPages || 1`. */
  function ReportedTotal(reported: Option<int>): (r: int)
    ensures reported.Some? && reported.value != 0 ==> r == reported.value
    ensures reported.None? || reported.value == 0 ==> r == 1
  {
    if reported.Some? && reported.value != 0 then reported.value else 1
  }
}

=== FILE: common.dfy ===
/** Shared vocabulary: optional values, identifiers and the handler reply shape. */
module Common {

  /** A possibly absent value (a JavaScript `undefined`). */
  datatype Option<+T> = None | Some(value: T) {
    function GetOr(default: T): T {
      match this
      case Some(v) => v
      case None => default
    }
  }

  /** The outcome of an operation that can fail with an error of type `E`. */
  datatype Result<+T, +E> = Success(value: T) | Failure(error: E)

  /** Document identifiers (MongoDB ObjectIds) are opaque strings here. */
  type Id = string

  /** Timestamps are integer milliseconds since the epoch. */
  type Time = int

  /** What an API handler answers: a status code and, on success, a payload. */
  datatype Reply<+T> = Done(status: nat, body: T) | Refused(status: nat)

  const Ok: nat := 200
  const Created: nat := 201
  const BadRequest: nat := 400
  const Unauthorized: nat := 401
  const Forbidden: nat := 403
  const NotFound: nat := 404
  const MethodNotAllowed: nat := 405
  const Conflict: nat := 409
  const ServerError: nat := 500

  /** Why the document store rejects a write: a failed schema validator, a unique-index clash
      (MongoDB error 11000), or a value that cannot be cast to the path's type. */
  datatype StoreError = ValidationError | DuplicateKey | CastError

  /** HTTP methods the handlers distinguish. */
  datatype Method = Get | Post | Patch | Delete | Other

  function Max(a: int, b: int): int { if a >= b then a else b }
  function Min(a: int, b: int): int { if a <= b then a else b }
}

=== FILE: discover_api.dfy ===
/**
 * The discover handler (pages/api/discover.ts): the top five founders by audience, the five newest
 * founders, and the five niches with the most stories over the last seven days.
 */
module DiscoverApi {
  import opened Common
  import opened Query
  import opened Ranking
  import opened StoryModel
  import opened ProfileModel

  /** `TREND_LIMIT`. */
  const TrendLimit: nat := 5

  /** Milliseconds in a day, and the seven-day window `setDate(getDate() - 7)` reaches back. */
  const Day: int := 86_400_000
  const Window: int := 7 * Day

  /** `find({}).sort({ followersCount: -1, storyCount: -1, createdAt: -1 }).limit(5)`. */
  function TrendingFounders(profiles: seq<FounderProfile>): (r: seq<FounderProfile>)
    ensures IsTop(TopFirst, r, profiles, TrendLimit)
  {
    OrdersArePreorders();
    Top(TopFirst, profiles, TrendLimit)
  }

  /** `find({}).sort({ createdAt: -1 }).limit(5)`. */
  function RecentFounders(profiles: seq<FounderProfile>): (r: seq<FounderProfile>)
    ensures IsTop(ProfileModel.NewerFirst, r, profiles, TrendLimit)
  {
    OrdersArePreorders();
    Top(ProfileModel.NewerFirst, profiles, TrendLimit)
  }

  /** An element a top-`k` selection leaves out ranks no higher than any element it keeps. */
  lemma OmittedRanksLower<T>(le: (T, T) -> bool, r: seq<T>, xs: seq<T>, k: nat, y: T, i: int)
    requires IsTop(le, r, xs, k)
    requires y in xs && y !in r && 0 <= i < |r|
    ensures le(r[i], y)
  {
    assert y in multiset(xs);
    assert y !in multiset(r);
    assert y in multiset(xs) - multiset(r);
  }

  /**
   * The trending list, read field by field: at most five profiles, ordered by followers, then
   * stories, then creation time, each descending; a profile left out has no more followers than
   * any profile listed, and one with strictly more followers than a listed profile is listed.
   */
  lemma TrendingFoundersOrder(profiles: seq<FounderProfile>, x: FounderProfile)
    ensures var r := TrendingFounders(profiles);
      && |r| <= TrendLimit && (|profiles| >= TrendLimit ==> |r| == TrendLimit)
      && (forall i, j :: 0 <= i < j < |r| ==>
            || r[i].stats.followersCount > r[j].stats.followersCount
            || (r[i].stats.followersCount == r[j].stats.followersCount
                && r[i].stats.storyCount > r[j].stats.storyCount)
            || (r[i].stats.followersCount == r[j].stats.followersCount
                && r[i].stats.storyCount == r[j].stats.storyCount
                && r[i].createdAt >= r[j].createdAt))
      && (x in profiles && x !in r ==>
            forall i :: 0 <= i < |r| ==> r[i].stats.followersCount >= x.stats.followersCount)
  {
    var r := TrendingFounders(profiles);
    if x in profiles && x !in r {
      forall i | 0 <= i < |r|
        ensures r[i].stats.followersCount >= x.stats.followersCount
      {
        OmittedRanksLower(TopFirst, r, profiles, TrendLimit, x, i);
      }
    }
  }

  /** The recent list: at most five profiles, newest first, and none left out is newer than one listed. */
  lemma RecentFoundersOrder(profiles: seq<FounderProfile>, x: FounderProfile)
    ensures var r := RecentFounders(profiles);
      && |r| <= TrendLimit && (|profiles| >= TrendLimit ==> |r| == TrendLimit)
      && (forall i, j :: 0 <= i < j < |r| ==> r[i].createdAt >= r[j].createdAt)
      && (x in profiles && x !in r ==> forall i :: 0 <= i < |r| ==> r[i].createdAt >= x.createdAt)
  {
    var r := RecentFounders(profiles);
    if x in profiles && x !in r {
      forall i | 0 <= i < |r|
        ensures r[i].createdAt >= x.createdAt
      {
        OmittedRanksLower(ProfileModel.NewerFirst, r, profiles, TrendLimit, x, i);
      }
    }
  }

  // ---------------------------------------------------------------------------------------------
  // The niche aggregation: $match, $group, $sort, $limit.

  /** `{ $match: { createdAt: { $gte: sevenDaysAgo } } }`. */
  predicate InWindow(s: Story, now: Time) {
    s.createdAt >= now - Window
  }

  /** The stories the `$match` stage lets through, in their stored order. */
  function Recent(stories: seq<Story>, now: Time): (r: seq<Story>)
    ensures forall k :: 0 <= k < |r| ==> InWindow(r[k], now) && r[k] in stories
    ensures forall s :: s in stories && InWindow(s, now) ==> s in r
    ensures |r| <= |stories|
  {
    Select(stories, (s: Story) => InWindow(s, now))
  }

  /** The `nicheCategoryId` of each story, in order. */
  function NicheIds(stories: seq<Story>): (r: seq<Id>)
    ensures |r| == |stories|
  {
    if |stories| == 0 then [] else [stories[0].nicheCategoryId] + NicheIds(stories[1..])
  }

  /** How often `id` occurs. */
  function Count(ids: seq<Id>, id: Id): nat {
    if |ids| == 0 then 0 else (if ids[0] == id then 1 else 0) + Count(ids[1..], id)
  }

  /** Every occurrence of `id` removed. */
  function Remove(ids: seq<Id>, id: Id): (r: seq<Id>)
    ensures |r| + Count(ids, id) == |ids|
    ensures forall k :: 0 <= k < |r| ==> r[k] != id && r[k] in ids
    ensures forall x :: x in ids && x != id ==> x in r
    ensures forall x :: x != id ==> Count(r, x) == Count(ids, x)
  {
    if |ids| == 0 then []
    else
      var rest := Remove(ids[1..], id);
      if ids[0] == id then rest else [ids[0]] + rest
  }

  /** One `$group` output document: `{ _id: nicheCategoryId, storyCount: { $sum: 1 } }`. */
  datatype NicheCount = NicheCount(nicheId: Id, storyCount: nat)

  /**
   * `r` is a `$group` of `ids`: one entry per distinct id, carrying the number of its occurrences,
   * and nothing else.
   */
  predicate Grouping(r: seq<NicheCount>, ids: seq<Id>) {
    && (forall k :: 0 <= k < |r| ==> r[k].nicheId in ids)
    && (forall k :: 0 <= k < |r| ==> r[k].storyCount == Count(ids, r[k].nicheId) && r[k].storyCount > 0)
    && (forall i, j :: 0 <= i < j < |r| ==> r[i].nicheId != r[j].nicheId)
    && (forall x :: x in ids ==> exists k :: 0 <= k < |r| && r[k].nicheId == x)
  }

  /** `$group` by id, in order of first occurrence (the store fixes no order; `$sort` follows). */
  function Group(ids: seq<Id>): (r: seq<NicheCount>)
    ensures Grouping(r, ids)
    decreases |ids|
  {
    if |ids| == 0 then []
    else
      var rest := Group(Remove(ids, ids[0]));
      GroupStep(ids, rest);
      [NicheCount(ids[0], Count(ids, ids[0]))] + rest
  }

  /** `r` is `rest` with `e` put in front, stated index by index. */
  predicate Prepended(r: seq<NicheCount>, e: NicheCount, rest: seq<NicheCount>) {
    |r| == |rest| + 1 && r[0] == e && forall k :: 0 <= k < |rest| ==> r[k + 1] == rest[k]
  }

  /** Grouping the first id and then the rest groups the whole sequence. */
  lemma GroupStep(ids: seq<Id>, rest: seq<NicheCount>)
    requires |ids| > 0 && Grouping(rest, Remove(ids, ids[0]))
    ensures Grouping([NicheCount(ids[0], Count(ids, ids[0]))] + rest, ids)
  {
    var id := ids[0];
    var others := Remove(ids, id);
    var e := NicheCount(id, Count(ids, id));
    var r := [e] + rest;
    assert Prepended(r, e, rest);
    assert Count(ids, id) > 0;
    GroupStepEntries(ids, others, rest, r);
    GroupStepCovers(ids, others, rest, r);
    GroupStepDistinct(id, others, rest, r);
  }

  /** Each entry of the combined grouping names an id of `ids` and carries its full, positive count. */
  lemma GroupStepEntries(ids: seq<Id>, others: seq<Id>, rest: seq<NicheCount>, r: seq<NicheCount>)
    requires |ids| > 0 && Count(ids, ids[0]) > 0
    requires Prepended(r, NicheCount(ids[0], Count(ids, ids[0])), rest)
    requires forall k :: 0 <= k < |rest| ==> rest[k].nicheId in others
    requires forall k :: 0 <= k < |rest| ==> rest[k].storyCount == Count(others, rest[k].nicheId) && rest[k].storyCount > 0
    requires forall k :: 0 <= k < |others| ==> others[k] != ids[0] && others[k] in ids
    requires forall x :: x != ids[0] ==> Count(others, x) == Count(ids, x)
    ensures forall k :: 0 <= k < |r| ==> r[k].nicheId in ids
    ensures forall k :: 0 <= k < |r| ==> r[k].storyCount == Count(ids, r[k].nicheId) && r[k].storyCount > 0
  {
    forall k | 0 <= k < |r|
      ensures r[k].nicheId in ids && r[k].storyCount == Count(ids, r[k].nicheId) && r[k].storyCount > 0
    {
      if k > 0 {
        var x := rest[k - 1].nicheId;
        assert r[k] == rest[k - 1];
        var m :| 0 <= m < |others| && others[m] == x;
      }
    }
  }

  /** Every id of `ids` has an entry in the combined grouping. */
  lemma GroupStepCovers(ids: seq<Id>, others: seq<Id>, rest: seq<NicheCount>, r: seq<NicheCount>)
    requires |ids| > 0
    requires Prepended(r, NicheCount(ids[0], Count(ids, ids[0])), rest)
    requires forall x :: x in ids && x != ids[0] ==> x in others
    requires forall x :: x in others ==> exists k :: 0 <= k < |rest| && rest[k].nicheId == x
    ensures forall x :: x in ids ==> exists k :: 0 <= k < |r| && r[k].nicheId == x
  {
    forall x | x in ids
      ensures exists k :: 0 <= k < |r| && r[k].nicheId == x
    {
      if x != ids[0] {
        var k :| 0 <= k < |rest| && rest[k].nicheId == x;
        assert r[k + 1].nicheId == x;
      } else {
        assert r[0].nicheId == x;
      }
    }
  }

  /** The combined grouping names each id once: the rest never names the first id. */
  lemma GroupStepDistinct(id: Id, others: seq<Id>, rest: seq<NicheCount>, r: seq<NicheCount>)
    requires |r| == |rest| + 1 && r[0].nicheId == id && forall k :: 0 <= k < |rest| ==> r[k + 1] == rest[k]
    requires forall k :: 0 <= k < |rest| ==> rest[k].nicheId in others
    requires forall k :: 0 <= k < |others| ==> others[k] != id
    requires forall i, j :: 0 <= i < j < |rest| ==> rest[i].nicheId != rest[j].nicheId
    ensures forall i, j :: 0 <= i < j < |r| ==> r[i].nicheId != r[j].nicheId
  {
    forall i, j | 0 <= i < j < |r|
      ensures r[i].nicheId != r[j].nicheId
    {
      assert r[j] == rest[j - 1];
      var m :| 0 <= m < |others| && others[m] == rest[j - 1].nicheId;
      if i > 0 {
        assert r[i] == rest[i - 1];
      }
    }
  }

  function Sum(xs: seq<NicheCount>): nat {
    if |xs| == 0 then 0 else xs[0].storyCount + Sum(xs[1..])
  }

  lemma {:induction false} SumAppend(a: seq<NicheCount>, b: seq<NicheCount>)
    ensures Sum(a + b) == Sum(a) + Sum(b)
  {
    if |a| > 0 {
      assert (a + b)[0] == a[0];
      assert (a + b)[1..] == a[1..] + b;
      SumAppend(a[1..], b);
    } else {
      assert a + b == b;
    }
  }

  /** The counts of a selection drawn from a collection add up to no more than the collection's. */
  lemma {:induction false} SumSubMultiset(r: seq<NicheCount>, xs: seq<NicheCount>)
    requires multiset(r) <= multiset(xs)
    ensures Sum(r) <= Sum(xs)
    decreases |r|
  {
    if |r| > 0 {
      var x := r[0];
      assert x in multiset(r);
      assert x in xs;
      var i :| 0 <= i < |xs| && xs[i] == x;
      var rest := xs[..i] + xs[i + 1..];
      RemoveAt(xs, i);
      assert multiset(r) == multiset{x} + multiset(r[1..]) by {
        assert r == [x] + r[1..];
      }
      forall y
        ensures multiset(r[1..])[y] <= multiset(rest)[y]
      {
        assert multiset(r)[y] <= multiset(xs)[y];
      }
      SumSubMultiset(r[1..], rest);
    }
  }

  /** Taking out the entry at `i` takes its count out of the sum and it out of the multiset. */
  lemma {:induction false} RemoveAt(xs: seq<NicheCount>, i: int)
    requires 0 <= i < |xs|
    ensures multiset(xs) == multiset(xs[..i] + xs[i + 1..]) + multiset{xs[i]}
    ensures Sum(xs) == xs[i].storyCount + Sum(xs[..i] + xs[i + 1..])
  {
    var a, b := xs[..i], xs[i + 1..];
    assert xs == a + [xs[i]] + b;
    SumAppend(a + [xs[i]], b);
    SumAppend(a, [xs[i]]);
    SumAppend(a, b);
    assert Sum([xs[i]]) == xs[i].storyCount;
  }

  /** The group counts partition the input: they add up to its length. */
  lemma {:induction false} GroupSum(ids: seq<Id>)
    ensures Sum(Group(ids)) == |ids|
    decreases |ids|
  {
    if |ids| > 0 {
      GroupSum(Remove(ids, ids[0]));
    }
  }

  /** `{ $sort: { storyCount: -1 } }`. */
  predicate MoreStories(a: NicheCount, b: NicheCount) {
    a.storyCount >= b.storyCount
  }

  lemma MoreStoriesIsPreorder()
    ensures TotalPreorder(MoreStories)
  {
  }

  /** The whole pipeline: the in-window stories grouped by niche, most stories first, at most five. */
  function NicheAggregate(stories: seq<Story>, now: Time): (r: seq<NicheCount>)
    ensures IsTop(MoreStories, r, Group(NicheIds(Recent(stories, now))), TrendLimit)
  {
    MoreStoriesIsPreorder();
    Top(MoreStories, Group(NicheIds(Recent(stories, now))), TrendLimit)
  }

  /** The number of stories of niche `id` created in the window, counted directly. */
  function StoriesInWindow(stories: seq<Story>, now: Time, id: Id): nat {
    if |stories| == 0 then 0
    else (if InWindow(stories[0], now) && stories[0].nicheCategoryId == id then 1 else 0)
         + StoriesInWindow(stories[1..], now, id)
  }

  lemma {:induction false} CountRecent(stories: seq<Story>, now: Time, id: Id)
    ensures Count(NicheIds(Recent(stories, now)), id) == StoriesInWindow(stories, now, id)
  {
    if |stories| > 0 {
      CountRecent(stories[1..], now, id);
      var rest := Recent(stories[1..], now);
      if InWindow(stories[0], now) {
        assert Recent(stories, now) == [stories[0]] + rest;
        assert ([stories[0]] + rest)[1..] == rest;
        assert NicheIds([stories[0]] + rest) == [stories[0].nicheCategoryId] + NicheIds(rest);
        assert ([stories[0].nicheCategoryId] + NicheIds(rest))[1..] == NicheIds(rest);
      } else {
        assert Recent(stories, now) == rest;
      }
    }
  }

  /**
   * What `trendingNiches` counts: at most five niches, each listed once, each with the exact
   * number of its stories created in the last seven days (so at least one), most stories first.
   */
  lemma NicheAggregateCounts(stories: seq<Story>, now: Time)
    ensures var r := NicheAggregate(stories, now);
      && |r| <= TrendLimit
      && (forall i, j :: 0 <= i < j < |r| ==> r[i].storyCount >= r[j].storyCount)
      && (forall i, j :: 0 <= i < j < |r| ==> r[i].nicheId != r[j].nicheId)
      && (forall k :: 0 <= k < |r| ==>
            r[k].storyCount == StoriesInWindow(stories, now, r[k].nicheId) && r[k].storyCount >= 1)
  {
    var g := Group(NicheIds(Recent(stories, now)));
    var r := NicheAggregate(stories, now);
    TopMembers(MoreStories, r, g, TrendLimit);
    forall k | 0 <= k < |r|
      ensures r[k].storyCount == StoriesInWindow(stories, now, r[k].nicheId)
    {
      CountRecent(stories, now, r[k].nicheId);
    }
    forall i, j | 0 <= i < j < |r|
      ensures r[i].nicheId != r[j].nicheId
    {
      NoRepeatedGroup(r, g, i, j);
    }
  }

  /** A selection from the groups cannot hold the same niche twice: the groups hold each niche once. */
  lemma NoRepeatedGroup(r: seq<NicheCount>, g: seq<NicheCount>, i: int, j: int)
    requires multiset(r) <= multiset(g)
    requires forall a, b :: 0 <= a < b < |g| ==> g[a].nicheId != g[b].nicheId
    requires 0 <= i < j < |r|
    ensures r[i].nicheId != r[j].nicheId
  {
    if r[i].nicheId == r[j].nicheId {
      assert r[i] in multiset(r) && r[j] in multiset(r);
      var a :| 0 <= a < |g| && g[a] == r[i];
      var b :| 0 <= b < |g| && g[b] == r[j];
      assert a == b;
      TwiceInSequence(r, i, j);
      OnceInDistinct(g, a);
      assert false;
    }
  }

  lemma TwiceInSequence<T>(s: seq<T>, i: int, j: int)
    requires 0 <= i < j < |s| && s[i] == s[j]
    ensures multiset(s)[s[i]] >= 2
  {
    assert s == s[..i] + [s[i]] + s[i + 1..j] + [s[j]] + s[j + 1..];
  }

  lemma {:induction false} OnceInDistinct(g: seq<NicheCount>, a: int)
    requires forall x, y :: 0 <= x < y < |g| ==> g[x].nicheId != g[y].nicheId
    requires 0 <= a < |g|
    ensures multiset(g)[g[a]] == 1
  {
    assert g == g[..a] + [g[a]] + g[a + 1..];
    assert g[a] !in multiset(g[..a]);
    assert g[a] !in multiset(g[a + 1..]);
  }

  /** A niche with stories in the window that is not listed has no more of them than any listed niche. */
  lemma OmittedNicheHasNoMore(stories: seq<Story>, now: Time, id: Id)
    requires StoriesInWindow(stories, now, id) > 0
    requires forall k :: 0 <= k < |NicheAggregate(stories, now)| ==> NicheAggregate(stories, now)[k].nicheId != id
    ensures forall k :: 0 <= k < |NicheAggregate(stories, now)| ==>
      NicheAggregate(stories, now)[k].storyCount >= StoriesInWindow(stories, now, id)
  {
    var ids := NicheIds(Recent(stories, now));
    var r := NicheAggregate(stories, now);
    CountRecent(stories, now, id);
    var e := GroupOf(ids, id);
    assert e !in r;
    forall k | 0 <= k < |r|
      ensures r[k].storyCount >= e.storyCount
    {
      OmittedRanksLower(MoreStories, r, Group(ids), TrendLimit, e, k);
    }
  }

  /** The group entry of an id that occurs. */
  lemma GroupOf(ids: seq<Id>, id: Id) returns (e: NicheCount)
    requires Count(ids, id) > 0
    ensures e in Group(ids) && e.nicheId == id && e.storyCount == Count(ids, id)
  {
    CountPositive(ids, id);
    var g := Group(ids);
    var m :| 0 <= m < |g| && g[m].nicheId == id;
    e := g[m];
  }

  lemma {:induction false} CountPositive(ids: seq<Id>, id: Id)
    requires Count(ids, id) > 0
    ensures id in ids
  {
    if ids[0] != id {
      CountPositive(ids[1..], id);
    }
  }

  /** The listed counts add up to no more than the number of stories in the window. */
  lemma NicheAggregateSum(stories: seq<Story>, now: Time)
    ensures Sum(NicheAggregate(stories, now)) <= |Recent(stories, now)|
  {
    var ids := NicheIds(Recent(stories, now));
    SumSubMultiset(NicheAggregate(stories, now), Group(ids));
    GroupSum(ids);
  }

  // ---------------------------------------------------------------------------------------------
  // Joining niche names.

  /** A `Niche` document. */
  datatype Niche = Niche(id: Id, name: string, slug: string)

  /** One `trendingNiches` entry: the name and slug are `undefined` when no niche matched. */
  datatype TrendingNiche = TrendingNiche(id: Id, name: Option<string>, slug: Option<string>, storyCount: nat)

  /** `niches.find((n) => n._id.toString() === id)`: the first niche with that id. */
  function FindNiche(niches: seq<Niche>, id: Id): (r: Option<Niche>)
    ensures r.Some? ==> r.value in niches && r.value.id == id
    ensures r.None? ==> forall k :: 0 <= k < |niches| ==> niches[k].id != id
  {
    if |niches| == 0 then None
    else if niches[0].id == id then Some(niches[0])
    else FindNiche(niches[1..], id)
  }

  /** `nicheAgg.map((n) => n._id).filter(Boolean)`. */
  function AggregateIds(agg: seq<NicheCount>): (r: seq<Id>)
    ensures forall x :: x in r <==> x != "" && exists k :: 0 <= k < |agg| && agg[k].nicheId == x
  {
    var ids := seq(|agg|, k requires 0 <= k < |agg| => agg[k].nicheId);
    assert forall k :: 0 <= k < |agg| ==> ids[k] == agg[k].nicheId;
    Select(ids, (x: Id) => x != "")
  }

  /** `Niche.find({ _id: { $in: nicheIds } })`, then each entry joined with its niche. */
  function JoinNiches(agg: seq<NicheCount>, niches: seq<Niche>): (r: seq<TrendingNiche>)
    ensures |r| == |agg|
    ensures forall k :: 0 <= k < |r| ==> r[k].id == agg[k].nicheId && r[k].storyCount == agg[k].storyCount
  {
    var ids := AggregateIds(agg);
    var fetched := Select(niches, (n: Niche) => n.id in ids);
    seq(|agg|, k requires 0 <= k < |agg| =>
      var n := FindNiche(fetched, agg[k].nicheId);
      TrendingNiche(agg[k].nicheId,
                    if n.Some? then Some(n.value.name) else None,
                    if n.Some? then Some(n.value.slug) else None,
                    agg[k].storyCount))
  }

  /** Looking up among the niches fetched by `$in` finds what looking up among all niches finds. */
  lemma {:induction false} FindAmongFetched(niches: seq<Niche>, ids: seq<Id>, id: Id)
    requires id in ids
    ensures FindNiche(Select(niches, (n: Niche) => n.id in ids), id) == FindNiche(niches, id)
  {
    if |niches| > 0 {
      FindAmongFetched(niches[1..], ids, id);
      var rest := Select(niches[1..], (n: Niche) => n.id in ids);
      if niches[0].id in ids {
        assert Select(niches, (n: Niche) => n.id in ids) == [niches[0]] + rest;
        assert ([niches[0]] + rest)[1..] == rest;
      } else {
        assert Select(niches, (n: Niche) => n.id in ids) == rest;
      }
    }
  }

  /**
   * Each entry carries the name and slug of its niche, exactly as a lookup in the whole niche
   * collection would give them; an entry without an id gets neither.
   */
  lemma JoinNichesNames(agg: seq<NicheCount>, niches: seq<Niche>, k: int)
    requires 0 <= k < |agg|
    ensures var e := JoinNiches(agg, niches)[k];
      var n := FindNiche(niches, agg[k].nicheId);
      && (agg[k].nicheId != "" ==>
            && (n.Some? ==> e.name == Some(n.value.name) && e.slug == Some(n.value.slug))
            && (n.None? ==> e.name.None? && e.slug.None?))
      && (agg[k].nicheId == "" ==> e.name.None? && e.slug.None?)
  {
    var ids := AggregateIds(agg);
    if agg[k].nicheId != "" {
      FindAmongFetched(niches, ids, agg[k].nicheId);
    }
  }

  /** An entry carries the name and slug of the first niche with its id, or neither when its id is empty or unknown. */
  predicate NamedFrom(e: TrendingNiche, niches: seq<Niche>) {
    var n := FindNiche(niches, e.id);
    if e.id != "" && n.Some? then e.name == Some(n.value.name) && e.slug == Some(n.value.slug)
    else e.name.None? && e.slug.None?
  }

  lemma JoinNichesAllNames(agg: seq<NicheCount>, niches: seq<Niche>)
    ensures forall k :: 0 <= k < |agg| ==> NamedFrom(JoinNiches(agg, niches)[k], niches)
  {
    forall k | 0 <= k < |agg|
      ensures NamedFrom(JoinNiches(agg, niches)[k], niches)
    {
      JoinNichesNames(agg, niches, k);
    }
  }

  /** The handler's answer. */
  datatype Discover = Discover(
    trendingFounders: seq<FounderProfile>,
    trendingNiches: seq<TrendingNiche>,
    recentFounders: seq<FounderProfile>)

  function HandleDiscover(profiles: seq<FounderProfile>, stories: seq<Story>, niches: seq<Niche>, now: Time): (r: Discover)
    ensures IsTop(TopFirst, r.trendingFounders, profiles, TrendLimit)
    ensures IsTop(ProfileModel.NewerFirst, r.recentFounders, profiles, TrendLimit)
    ensures |r.trendingNiches| == |NicheAggregate(stories, now)| <= TrendLimit
    ensures forall k :: 0 <= k < |r.trendingNiches| ==>
      && r.trendingNiches[k].id == NicheAggregate(stories, now)[k].nicheId
      && r.trendingNiches[k].storyCount == NicheAggregate(stories, now)[k].storyCount
    ensures forall k :: 0 <= k < |r.trendingNiches| ==>
      r.trendingNiches[k].storyCount == StoriesInWindow(stories, now, r.trendingNiches[k].id)
    ensures forall i, j :: 0 <= i < j < |r.trendingNiches| ==>
      r.trendingNiches[i].storyCount >= r.trendingNiches[j].storyCount && r.trendingNiches[i].id != r.trendingNiches[j].id
    ensures forall k :: 0 <= k < |r.trendingNiches| ==> NamedFrom(r.trendingNiches[k], niches)
  {
    var agg := NicheAggregate(stories, now);
    NicheAggregateCounts(stories, now);
    JoinNichesAllNames(agg, niches);
    Discover(TrendingFounders(profiles), JoinNiches(agg, niches), RecentFounders(profiles))
  }
}

=== FILE: discover_page.dfy ===
/**
 * The pure logic of the discover page (pages/discover.tsx): the founders list state `loadFounders`
 * keeps, the filter selects and their label, and the text helpers of a founder card.
 */
module DiscoverPage {
  import opened Common
  import opened Text
  import opened ClientPaging

  /** The fields of a founder card the page reads. */
  datatype Founder = Founder(
    id: Id,
    name: Option<string>,
    brandName: Option<string>,
    region: Option<string>,
    aboutFounder: Option<string>)

  /** `x || fallback` for an optional string: `undefined` and `''` are both falsy. */
  predicate Truthy(o: Option<string>) {
    o.Some? && o.value != ""
  }

  // ---------------------------------------------------------------------------------------------
  // Filters

  /** The `filters` state. */
  datatype Filters = Filters(niche: Option<string>, region: Option<string>)

  /** `e.target.value || undefined`: the empty option clears a filter. */
  function FromSelect(v: string): (r: Option<string>)
    ensures r.None? <==> v == ""
    ensures r.Some? ==> r.value == v
  {
    if v == "" then None else Some(v)
  }

  /** `value={filters.x || ''}`: what a select shows for a filter. */
  function ShownInSelect(o: Option<string>): (r: string)
    ensures Truthy(o) ==> r == o.value
    ensures !Truthy(o) ==> r == ""
  {
    if Truthy(o) then o.value else ""
  }

  function SelectNiche(f: Filters, v: string): (r: Filters)
    ensures r.region == f.region
    ensures r.niche == FromSelect(v)
  {
    f.(niche := FromSelect(v))
  }

  function SelectRegion(f: Filters, v: string): (r: Filters)
    ensures r.niche == f.niche
    ensures r.region == FromSelect(v)
  {
    f.(region := FromSelect(v))
  }

  /** Choosing an option and reading the select back gives that option; choosing the empty option clears the filter. */
  lemma SelectRoundTrip(f: Filters, v: string)
    ensures ShownInSelect(SelectNiche(f, v).niche) == v
    ensures ShownInSelect(SelectRegion(f, v).region) == v
    ensures v == "" ==> SelectNiche(f, v).niche.None? && SelectRegion(f, v).region.None?
    ensures !Truthy(SelectNiche(f, v).niche) <==> v == ""
  {
  }

  const Separator: string := " · "

  /** `filteredLabel`. */
  function FilteredLabel(f: Filters): (r: string)
    ensures r == "All founders" <==> !Truthy(f.niche) && !Truthy(f.region)
    ensures Truthy(f.niche) && !Truthy(f.region) ==> r == "Niche: " + f.niche.value
    ensures !Truthy(f.niche) && Truthy(f.region) ==> r == "Region: " + f.region.value
    ensures Truthy(f.niche) && Truthy(f.region) ==> r == "Niche: " + f.niche.value + " · " + "Region: " + f.region.value
  {
    if !Truthy(f.niche) && !Truthy(f.region) then "All founders"
    else
      var parts := (if Truthy(f.niche) then ["Niche: " + f.niche.value] else [])
                 + (if Truthy(f.region) then ["Region: " + f.region.value] else []);
      var r := JoinWith(parts, Separator);
      assert r != "All founders" by {
        assert r[0] == 'N' || r[0] == 'R';
      }
      r
  }

  /** Picking a niche from the cleared filters labels the list with that niche alone; picking a region then adds it after " · ". */
  lemma LabelAfterSelects(n: string, g: string)
    ensures FilteredLabel(SelectNiche(Filters(None, None), n)) == (if n == "" then "All founders" else "Niche: " + n)
    ensures n != "" && g != "" ==>
      FilteredLabel(SelectRegion(SelectNiche(Filters(None, None), n), g)) == "Niche: " + n + " · " + "Region: " + g
  {
  }

  /** `parts.join(sep)` for one or two parts. */
  function JoinWith(parts: seq<string>, sep: string): (r: string)
    requires 1 <= |parts| <= 2
    ensures |parts| == 1 ==> r == parts[0]
    ensures |parts| == 2 ==> r == parts[0] + sep + parts[1]
  {
    if |parts| == 1 then parts[0] else parts[0] + sep + parts[1]
  }

  // ---------------------------------------------------------------------------------------------
  // The founder card

  /** `about.length > 80 ? about.slice(0, 77) + '...' : about`, with `about = aboutFounder || ''`. */
  function Snippet(about: Option<string>): (r: string)
    ensures |r| <= 80
    ensures !Truthy(about) ==> r == ""
    ensures Truthy(about) && |about.value| <= 80 ==> r == about.value
    ensures Truthy(about) && |about.value| > 80 ==>
      |r| == 80 && r[..77] == about.value[..77] && r[77..] == "..."
  {
    var text := if Truthy(about) then about.value else "";
    if |text| > 80 then text[..77] + "..." else text
  }

  /** Shortening a snippet again changes nothing. */
  lemma SnippetIdempotent(about: Option<string>)
    ensures Snippet(Some(Snippet(about))) == Snippet(about)
  {
  }

  /** `(name || brandName || '?').charAt(0).toUpperCase()`. */
  function Initial(name: Option<string>, brandName: Option<string>): (r: char)
    ensures Truthy(name) ==> r == UpperChar(name.value[0])
    ensures !Truthy(name) && Truthy(brandName) ==> r == UpperChar(brandName.value[0])
    ensures !Truthy(name) && !Truthy(brandName) ==> r == '?'
    ensures !('a' <= r <= 'z')
  {
    var source := if Truthy(name) then name.value else if Truthy(brandName) then brandName.value else "?";
    UpperChar(source[0])
  }

  // ---------------------------------------------------------------------------------------------
  // loadFounders

  /** The founders list state. */
  datatype Listing = Listing(founders: seq<Founder>, page: int, totalPages: int)

  /** What the founders request came back with: a response with `res.ok`, one without, or a thrown `fetch`. */
  datatype Response =
    | Answered(items: seq<Founder>, page: Option<int>, totalPages: Option<int>)
    | HttpError
    | Thrown

  /**
   * `loadFounders(nextPage, append)`. An empty first page shows the demo founders; an error
   * answer does the same on page 1 and nothing otherwise; a thrown request is not caught and
   * leaves the list as it was.
   */
  function LoadFounders(l: Listing, nextPage: int, append: bool, response: Response, demo: seq<Founder>): (r: Listing)
    ensures response.Answered? && response.items == [] && nextPage == 1 ==> r == Listing(demo, 1, 1)
    ensures response.Answered? && !(response.items == [] && nextPage == 1) ==>
      && r.founders == (if append then l.founders + response.items else response.items)
      && r.page == ReportedPage(response.page, nextPage)
      && r.totalPages == ReportedTotal(response.totalPages)
    ensures response.HttpError? && nextPage == 1 ==> r == Listing(demo, 1, 1)
    ensures response.HttpError? && nextPage != 1 ==> r == l
    ensures response.Thrown? ==> r == l
  {
    match response
    case Answered(items, page, totalPages) =>
      if |items| == 0 && nextPage == 1 then Listing(demo, 1, 1)
      else Listing(if append then l.founders + items else items, ReportedPage(page, nextPage), ReportedTotal(totalPages))
    case HttpError => if nextPage == 1 then Listing(demo, 1, 1) else l
    case Thrown => l
  }

  /** `handleLoadMore`: when there is a next page and nothing is loading, load it and append. */
  function HandleLoadMore(l: Listing, loading: bool, response: Response, demo: seq<Founder>): (r: Listing)
    ensures !HasMore(l.page, l.totalPages) || loading ==> r == l
    ensures HasMore(l.page, l.totalPages) && !loading ==> r == LoadFounders(l, l.page + 1, true, response, demo)
  {
    match LoadMore(l.page, l.totalPages, loading)
    case None => l
    case Some(next) => LoadFounders(l, next, true, response, demo)
  }

  /** Loading more from a valid page keeps every founder already shown, in place, and adds the answer's items after them. */
  lemma LoadMoreAppends(l: Listing, loading: bool, response: Response, demo: seq<Founder>)
    requires l.page >= 1
    ensures var r := HandleLoadMore(l, loading, response, demo);
      && |r.founders| >= |l.founders| && r.founders[..|l.founders|] == l.founders
      && (HasMore(l.page, l.totalPages) && !loading && response.Answered? ==>
            r.founders == l.founders + response.items)
  {
    var r := HandleLoadMore(l, loading, response, demo);
    if HasMore(l.page, l.totalPages) && !loading && response.Answered? {
      assert (l.founders + response.items)[..|l.founders|] == l.founders;
    }
  }

  /** A filter change reloads page 1 without appending: the list becomes the answer's items (or the demo when there are none). */
  lemma FilterChangeReplaces(l: Listing, items: seq<Founder>, page: Option<int>, totalPages: Option<int>, demo: seq<Founder>)
    ensures LoadFounders(l, 1, false, Answered(items, page, totalPages), demo).founders == (if items == [] then demo else items)
  {
  }
}

=== FILE: feed_page.dfy ===
/**
 * The pure logic of the feed page (pages/feed.tsx): relative-time labels, the optimistic like
 * toggle with its revert, and the list state `fetchStories` maintains.
 */
module FeedPage {
  import opened Common
  import opened ClientPaging

  // ---------------------------------------------------------------------------------------------
  // formatRelativeTime

  const Second: int := 1000
  const Minute: int := 60 * Second
  const Hour: int := 60 * Minute
  const Day: int := 24 * Hour

  /** The unit `formatRelativeTime` picks and the number it shows with it. */
  datatype Ago = SecondsAgo(n: int) | MinutesAgo(n: int) | HoursAgo(n: int) | DaysAgo(n: int)

  /** For a positive divisor Dafny's `/` is `Math.floor` of the quotient: `q` is the floor of `a / d` exactly when `q*d <= a < (q+1)*d`. */
  lemma FloorIs(a: int, d: int, q: int)
    requires d > 0 && q * d <= a < (q + 1) * d
    ensures a / d == q
  {
    var q' := a / d;
    assert q' * d <= a < (q' + 1) * d;
    if q' > q {
      MultiplyLeq(q + 1, q', d);
    } else if q' < q {
      MultiplyLeq(q' + 1, q, d);
    }
  }

  lemma FloorBounds(a: int, d: int)
    requires d > 0
    ensures (a / d) * d <= a < (a / d + 1) * d
  {
  }

  /** Flooring twice is flooring once by the product. */
  lemma FloorNest(a: int, b: int, c: int)
    requires b > 0 && c > 0
    ensures (a / b) / c == a / (b * c)
  {
    var q := a / b;
    var q2 := q / c;
    FloorBounds(a, b);
    FloorBounds(q, c);
    assert q2 * c <= q < (q2 + 1) * c;
    assert q2 * c * b <= q * b by {
      MultiplyLeq(q2 * c, q, b);
    }
    assert (q + 1) * b <= (q2 + 1) * c * b by {
      MultiplyLeq(q + 1, (q2 + 1) * c, b);
    }
    assert q2 * (b * c) == q2 * c * b && (q2 + 1) * (b * c) == (q2 + 1) * c * b;
    FloorIs(a, b * c, q2);
  }

  lemma MultiplyLeq(x: int, y: int, z: int)
    requires x <= y && z >= 0
    ensures x * z <= y * z
  {
  }

  /**
   * `formatRelativeTime` for an age of `diff` milliseconds (`Date.now() - createdAt`): seconds,
   * minutes, hours and days by repeated floor division, stopping at the first value in range.
   */
  function RelativeTime(diff: int): (r: Ago)
    ensures r.SecondsAgo? <==> diff < Minute
    ensures r.MinutesAgo? <==> Minute <= diff < Hour
    ensures r.HoursAgo? <==> Hour <= diff < Day
    ensures r.DaysAgo? <==> Day <= diff
    ensures r.SecondsAgo? ==> r.n < 60 && r.n * Second <= diff < (r.n + 1) * Second
    ensures r.MinutesAgo? ==> 1 <= r.n < 60 && r.n * Minute <= diff < (r.n + 1) * Minute
    ensures r.HoursAgo? ==> 1 <= r.n < 24 && r.n * Hour <= diff < (r.n + 1) * Hour
    ensures r.DaysAgo? ==> 1 <= r.n && r.n * Day <= diff < (r.n + 1) * Day
  {
    var seconds := diff / 1000;
    var minutes := seconds / 60;
    var hours := minutes / 60;
    var days := hours / 24;
    FloorNest(diff, 1000, 60);
    FloorNest(diff, Minute, 60);
    FloorNest(diff, Hour, 24);
    FloorBounds(diff, Second);
    FloorBounds(diff, Minute);
    FloorBounds(diff, Hour);
    FloorBounds(diff, Day);
    if seconds < 60 then SecondsAgo(seconds)
    else if minutes < 60 then MinutesAgo(minutes)
    else if hours < 24 then HoursAgo(hours)
    else DaysAgo(days)
  }

  // ---------------------------------------------------------------------------------------------
  // handleLikeToggle

  /** The fields of a feed story the page reads. */
  datatype FeedStory = FeedStory(id: Id, text: string, likeCount: int, commentCount: int, createdAt: Time)

  /** The client state the like toggle touches. */
  datatype LikeState = LikeState(likedIds: set<Id>, stories: seq<FeedStory>)

  /** `prev.map((s) => s._id === id ? { ...s, likeCount: Math.max(0, s.likeCount + delta) } : s)`. */
  function AdjustLikes(stories: seq<FeedStory>, id: Id, delta: int): (r: seq<FeedStory>)
    ensures |r| == |stories|
    ensures forall k :: 0 <= k < |r| && stories[k].id == id ==>
      r[k] == stories[k].(likeCount := Max(0, stories[k].likeCount + delta))
    ensures forall k :: 0 <= k < |r| && stories[k].id != id ==> r[k] == stories[k]
  {
    seq(|stories|, k requires 0 <= k < |stories| =>
      var s := stories[k];
      if s.id == id then s.(likeCount := Max(0, s.likeCount + delta)) else s)
  }

  /** The request the toggle sends: `DELETE` to unlike, `POST` to like. */
  function LikeVerb(currentlyLiked: bool): (r: Method)
    ensures r == Delete || r == Post
    ensures r == Delete <==> currentlyLiked
  {
    if currentlyLiked then Delete else Post
  }

  /** The optimistic update. The flag returned is `currentlyLiked`, which the revert needs. */
  function ToggleLike(st: LikeState, id: Id): (r: (LikeState, bool))
    ensures r.1 <==> id in st.likedIds
    ensures id in r.0.likedIds <==> id !in st.likedIds
    ensures forall x :: x != id ==> (x in r.0.likedIds <==> x in st.likedIds)
    ensures |r.0.stories| == |st.stories|
    ensures forall k :: 0 <= k < |st.stories| && st.stories[k].id == id ==>
      && r.0.stories[k].likeCount == Max(0, st.stories[k].likeCount + (if r.1 then -1 else 1))
      && r.0.stories[k] == st.stories[k].(likeCount := r.0.stories[k].likeCount)
    ensures forall k :: 0 <= k < |st.stories| && st.stories[k].id != id ==> r.0.stories[k] == st.stories[k]
  {
    var currentlyLiked := id in st.likedIds;
    var ids := if currentlyLiked then st.likedIds - {id} else st.likedIds + {id};
    (LikeState(ids, AdjustLikes(st.stories, id, if currentlyLiked then -1 else 1)), currentlyLiked)
  }

  /** The toggle unlikes (`DELETE`) a story the user had liked and likes (`POST`) any other. */
  lemma ToggleSendsVerb(st: LikeState, id: Id)
    ensures LikeVerb(ToggleLike(st, id).1) == (if id in st.likedIds then Delete else Post)
  {
  }

  /** The `catch` branch: put the membership back and undo the count change, again floored at 0. */
  function RevertLike(st: LikeState, id: Id, currentlyLiked: bool): (r: LikeState)
    ensures id in r.likedIds <==> currentlyLiked
    ensures forall x :: x != id ==> (x in r.likedIds <==> x in st.likedIds)
    ensures |r.stories| == |st.stories|
    ensures forall k :: 0 <= k < |st.stories| && st.stories[k].id == id ==>
      r.stories[k].likeCount == Max(0, st.stories[k].likeCount + (if currentlyLiked then 1 else -1))
    ensures forall k :: 0 <= k < |st.stories| && st.stories[k].id != id ==> r.stories[k] == st.stories[k]
  {
    var ids := if currentlyLiked then st.likedIds + {id} else st.likedIds - {id};
    LikeState(ids, AdjustLikes(st.stories, id, if currentlyLiked then 1 else -1))
  }

  predicate CountsNonNegative(stories: seq<FeedStory>) {
    forall k :: 0 <= k < |stories| ==> stories[k].likeCount >= 0
  }

  /** Neither the toggle nor the revert can make a count negative; the stories they touch are non-negative whatever the start. */
  lemma LikeCountsStayNonNegative(st: LikeState, id: Id, flag: bool)
    requires CountsNonNegative(st.stories)
    ensures CountsNonNegative(ToggleLike(st, id).0.stories)
    ensures CountsNonNegative(RevertLike(st, id, flag).stories)
  {
  }

  /** A failed request puts `likedIds` back exactly as it was. */
  lemma RevertRestoresLikedIds(st: LikeState, id: Id)
    ensures var (next, flag) := ToggleLike(st, id); RevertLike(next, id, flag).likedIds == st.likedIds
  {
    var (next, flag) := ToggleLike(st, id);
    var back := RevertLike(next, id, flag);
    assert forall x :: x in back.likedIds <==> x in st.likedIds;
  }

  /**
   * A failed like, or a failed unlike of a story that had at least one like, puts the stories
   * back exactly as they were.
   */
  lemma RevertRestoresStories(st: LikeState, id: Id)
    requires CountsNonNegative(st.stories)
    requires id in st.likedIds ==> forall k :: 0 <= k < |st.stories| && st.stories[k].id == id ==> st.stories[k].likeCount >= 1
    ensures var (next, flag) := ToggleLike(st, id); RevertLike(next, id, flag).stories == st.stories
  {
    var (next, flag) := ToggleLike(st, id);
    var back := RevertLike(next, id, flag);
    forall k | 0 <= k < |st.stories|
      ensures back.stories[k] == st.stories[k]
    {
      if st.stories[k].id == id {
        assert back.stories[k] == next.stories[k].(likeCount := back.stories[k].likeCount);
      }
    }
  }

  /** The clamp loses information: a failed unlike of a story shown with 0 likes leaves it at 1. */
  lemma UnlikeFromZeroIsNotRestored()
    ensures var st := LikeState({"s"}, [FeedStory("s", "", 0, 0, 0)]);
      var (next, flag) := ToggleLike(st, "s");
      && next.stories[0].likeCount == 0
      && RevertLike(next, "s", flag).stories[0].likeCount == 1
      && RevertLike(next, "s", flag).stories != st.stories
  {
    var st := LikeState({"s"}, [FeedStory("s", "", 0, 0, 0)]);
    var (next, flag) := ToggleLike(st, "s");
    assert flag;
    assert next.stories[0].likeCount == 0;
    var back := RevertLike(next, "s", flag);
    assert back.stories[0].likeCount == 1;
    assert back.stories[0] != st.stories[0];
  }

  // ---------------------------------------------------------------------------------------------
  // fetchStories

  /** The feed's list state: the stories shown, `page`, `totalPages`, and whether an error is shown. */
  datatype Feed = Feed(stories: seq<FeedStory>, page: int, totalPages: int, failed: bool)

  /** What a request for a page of stories came back with. */
  datatype Fetch =
    | Fetched(items: seq<FeedStory>, page: Option<int>, totalPages: Option<int>)
    | FetchFailed

  /**
   * `fetchStories(nextPage)`. An empty answer shows the demo stories (in place of the list for
   * page 1, after it otherwise) and resets the paging to one page; a failure shows the demo
   * stories only on page 1.
   */
  function FetchStories(f: Feed, nextPage: int, outcome: Fetch, demo: seq<FeedStory>): (r: Feed)
    ensures outcome.Fetched? && outcome.items == [] ==>
      && r.page == 1 && r.totalPages == 1
      && r.stories == (if nextPage == 1 then demo else f.stories + demo)
      && !r.failed
    ensures outcome.Fetched? && outcome.items != [] ==>
      && r.stories == (if nextPage == 1 then outcome.items else f.stories + outcome.items)
      && r.page == ReportedPage(outcome.page, nextPage)
      && r.totalPages == ReportedTotal(outcome.totalPages)
      && !r.failed
    ensures outcome.FetchFailed? ==> r.failed
    ensures outcome.FetchFailed? && nextPage == 1 ==> r.stories == demo && r.page == 1 && r.totalPages == 1
    ensures outcome.FetchFailed? && nextPage != 1 ==> r == f.(failed := true)
  {
    match outcome
    case FetchFailed =>
      if nextPage == 1 then Feed(demo, 1, 1, true) else f.(failed := true)
    case Fetched(items, page, totalPages) =>
      if |items| == 0 then
        Feed(if nextPage == 1 then demo else f.stories + demo, 1, 1, false)
      else
        Feed(if nextPage == 1 then items else f.stories + items,
             ReportedPage(page, nextPage), ReportedTotal(totalPages), false)
  }

  /** After an empty answer the "Load more" button is gone. */
  lemma EmptyFetchHidesLoadMore(f: Feed, nextPage: int, page: Option<int>, totalPages: Option<int>, demo: seq<FeedStory>)
    ensures !HasMore(FetchStories(f, nextPage, Fetched([], page, totalPages), demo).page,
                     FetchStories(f, nextPage, Fetched([], page, totalPages), demo).totalPages)
  {
  }

  /** Loading more (a request for the page after a valid current one) never drops a story already shown. */
  lemma LoadMoreKeepsShownStories(f: Feed, loading: bool, outcome: Fetch, demo: seq<FeedStory>)
    requires f.page >= 1
    requires LoadMore(f.page, f.totalPages, loading).Some?
    ensures var r := FetchStories(f, LoadMore(f.page, f.totalPages, loading).value, outcome, demo);
      |r.stories| >= |f.stories| && r.stories[..|f.stories|] == f.stories
  {
    var r := FetchStories(f, f.page + 1, outcome, demo);
    if outcome.Fetched? {
      assert (f.stories + demo)[..|f.stories|] == f.stories;
      assert (f.stories + outcome.items)[..|f.stories|] == f.stories;
    }
  }

  /** A server answer within its own paging (page at most totalPages) leaves "Load more" shown exactly when pages remain. */
  lemma FetchedPageDecidesLoadMore(f: Feed, nextPage: int, items: seq<FeedStory>, p: int, t: int, demo: seq<FeedStory>)
    requires items != [] && 1 <= p && 1 <= t
    ensures var r := FetchStories(f, nextPage, Fetched(items, Some(p), Some(t)), demo);
      HasMore(r.page, r.totalPages) <==> p < t
  {
  }
}

=== FILE: founders_api.dfy ===
/** The founders collection handler (pages/api/founders/index.ts): paginated listing and profile upsert. */
module FoundersApi {
  import opened Common
  import opened Json
  import opened Text
  import opened Query
  import opened Pagination
  import opened Ranking
  import opened Users
  import opened ProfileModel

  datatype ListRequest = ListRequest(
    page: Option<int>,
    limit: Option<int>,
    niche: Option<string>,
    region: Option<string>,
    sort: Option<string>)

  /** The two entries of `ALLOWED_SORT`. */
  datatype SortKey = Top | New

  /** `ALLOWED_SORT[req.query.sort ?? 'new'] ?? ALLOWED_SORT.new`. */
  function SelectSort(sort: Option<string>): (r: SortKey)
    ensures r == Top <==> sort == Some("top")
  {
    var key := if Supplied(sort) then sort.value else "new";
    if key == "top" then Top else New
  }

  function Order(k: SortKey): (FounderProfile, FounderProfile) -> bool {
    match k
    case Top => TopFirst
    case New => NewerFirst
  }

  lemma OrderIsPreorder(k: SortKey)
    ensures TotalPreorder(Order(k))
  {
    OrdersArePreorders();
  }

  /** The filter holds `nicheCategoryId` and `region` exactly when those parameters were given. */
  function FounderFilter(niche: Option<string>, region: Option<string>): (f: Filter)
    ensures NicheCategoryId in f <==> Supplied(niche)
    ensures Region in f <==> Supplied(region)
    ensures FounderProfileId !in f && Status !in f
    ensures NicheCategoryId in f ==> f[NicheCategoryId] == niche.value
    ensures Region in f ==> f[Region] == region.value
  {
    AddIfSupplied(AddIfSupplied(map[], NicheCategoryId, niche), Region, region)
  }

  /** Whether a profile satisfies an equality filter. */
  predicate Matches(f: Filter, p: FounderProfile) {
    && (NicheCategoryId in f ==> p.nicheCategoryId == f[NicheCategoryId])
    && (Region in f ==> p.region == Some(f[Region]))
  }

  /** Filtering on the built filter means: same niche when one was given, same region when one was given. */
  lemma FounderFilterSemantics(niche: Option<string>, region: Option<string>, p: FounderProfile)
    ensures Matches(FounderFilter(niche, region), p) <==>
      && (Supplied(niche) ==> p.nicheCategoryId == niche.value)
      && (Supplied(region) ==> p.region == Some(region.value))
  {
  }

  /** All matching profiles, in one order the requested sort allows. */
  function Ranked(profiles: seq<FounderProfile>, q: ListRequest): (r: seq<FounderProfile>)
    ensures IsRanking(Order(SelectSort(q.sort)), r, Select(profiles, (p: FounderProfile) => Matches(FounderFilter(q.niche, q.region), p)))
  {
    var f := FounderFilter(q.niche, q.region);
    OrderIsPreorder(SelectSort(q.sort));
    Sort(Order(SelectSort(q.sort)), Select(profiles, (p: FounderProfile) => Matches(f, p)))
  }

  /** `handleGet`: `find(filter).sort(sort).skip(skip).limit(limit)` plus the page count. */
  function ListFounders(profiles: seq<FounderProfile>, q: ListRequest): (r: ListPage<FounderProfile>)
    ensures r.page >= 1 && r.totalPages >= 1
    ensures |r.items| <= ClampLimit(q.limit) <= MaxLimit
    ensures forall k :: 0 <= k < |r.items| ==> r.items[k] in profiles && Matches(FounderFilter(q.niche, q.region), r.items[k])
    ensures SortedBy(Order(SelectSort(q.sort)), r.items)
    ensures r.items != [] ==> r.page <= r.totalPages
  {
    var page := ClampPage(q.page);
    var limit := ClampLimit(q.limit);
    var f := FounderFilter(q.niche, q.region);
    var matching := Select(profiles, (p: FounderProfile) => Matches(f, p));
    var ranked := Ranked(profiles, q);
    var items := PageItems(ranked, page, limit);
    RankedPage(Order(SelectSort(q.sort)), ranked, matching, page, limit);
    ListPage(items, page, TotalPages(|matching|, limit))
  }

  /** Walking pages 1 to `totalPages` with a fixed limit reaches every matching profile. */
  lemma EveryMatchIsOnSomePage(profiles: seq<FounderProfile>, q: ListRequest, x: FounderProfile)
    requires x in profiles && Matches(FounderFilter(q.niche, q.region), x)
    ensures exists p :: (1 <= p <= ListFounders(profiles, q).totalPages
      && x in ListFounders(profiles, q.(page := Some(p))).items)
  {
    var ranked := Ranked(profiles, q);
    assert x in ranked by {
      var matching := Select(profiles, (p: FounderProfile) => Matches(FounderFilter(q.niche, q.region), p));
      assert x in matching;
      assert x in multiset(matching);
      assert x in multiset(ranked);
    }
    var p := EveryItemOnSomePage(ranked, x, ClampLimit(q.limit));
    ListFoundersUnfold(profiles, q);
    OtherPage(profiles, q, p);
  }

  /** The ranking does not depend on the page asked for, so a profile on page `p` of it is what page `p` returns. */
  lemma OtherPage(profiles: seq<FounderProfile>, q: ListRequest, p: int)
    requires p >= 1
    ensures ListFounders(profiles, q.(page := Some(p))).items == PageItems(Ranked(profiles, q), p, ClampLimit(q.limit))
  {
    assert Ranked(profiles, q.(page := Some(p))) == Ranked(profiles, q);
    ListFoundersUnfold(profiles, q.(page := Some(p)));
  }

  lemma ListFoundersUnfold(profiles: seq<FounderProfile>, q: ListRequest)
    ensures ListFounders(profiles, q).page == ClampPage(q.page)
    ensures ListFounders(profiles, q).items == PageItems(Ranked(profiles, q), ClampPage(q.page), ClampLimit(q.limit))
    ensures ListFounders(profiles, q).totalPages == TotalPages(|Ranked(profiles, q)|, ClampLimit(q.limit))
  {
    var ranked := Ranked(profiles, q);
    assert |multiset(ranked)| == |ranked|;
  }

  /** The body keys `handlePost` reads; every other key is ignored. */
  const PostFields: set<string> := {"brandName", "aboutFounder", "storyHighlights", "nicheCategoryId", "region"}

  /** `String(x)` of a truthy optional body field, else `undefined`. */
  function OptionalString(o: Option<Json>): (r: Option<string>)
    ensures r.Some? <==> Given(o)
  {
    if Given(o) then Some(JsString(o.value)) else None
  }

  /**
   * `handlePost`: validate, sanitise `storyHighlights`, require a founder, then upsert the
   * owner's profile. A `nicheCategoryId` that cannot be cast is caught and answered 500.
   */
  function PostFounder(users: seq<User>, profiles: seq<FounderProfile>, auth: Option<Id>, body: Body,
                       newId: Id, now: Time): (out: (Reply<FounderProfile>, seq<FounderProfile>))
    ensures auth.None? ==> out.0 == Refused(Unauthorized)
    ensures auth.Some? && (!NonEmptyString(Field(body, "aboutFounder")) || !Given(Field(body, "nicheCategoryId")))
      ==> out.0 == Refused(BadRequest)
    ensures auth.Some? && NonEmptyString(Field(body, "aboutFounder")) && Given(Field(body, "nicheCategoryId"))
      && (FindUser(users, auth.value).None? || FindUser(users, auth.value).value.role != Founder)
      ==> out.0 == Refused(Forbidden)
    ensures auth.Some? && NonEmptyString(Field(body, "aboutFounder")) && Given(Field(body, "nicheCategoryId"))
      && FindUser(users, auth.value).Some? && FindUser(users, auth.value).value.role == Founder
      ==> if Field(body, "nicheCategoryId").value.JStr? then out.0.Done? else out.0 == Refused(ServerError)
    ensures out.0.Refused? ==> out.1 == profiles
    ensures out.0.Done? ==>
      && auth.Some? && Field(body, "nicheCategoryId").value.JStr?
      && var prev := FindByUser(profiles, auth.value);
      && out.0.body.nicheCategoryId == Field(body, "nicheCategoryId").value.s
      && out.0.body.brandName == (if Given(Field(body, "brandName")) then Some(Trim(JsString(Field(body, "brandName").value)))
                                  else if prev.Some? then prev.value.brandName else None)
      && out.0.body.region == (if Given(Field(body, "region")) then Some(Trim(JsString(Field(body, "region").value)))
                               else if prev.Some? then prev.value.region else None)
      && (prev.Some? ==> out.0.body.id == prev.value.id && out.0.body.stats == prev.value.stats
                         && out.0.body.createdAt == prev.value.createdAt)
      && (prev.None? ==> out.0.body.id == newId && out.0.body.stats == ZeroStats && out.0.body.createdAt == now)
    ensures out.0.Done? ==>
      && auth.Some? && out.0.status == Ok
      && FindUser(users, auth.value).Some? && FindUser(users, auth.value).value.role == Founder
      && out.0.body.userId == auth.value
      && out.0.body.storyHighlights == StringsOrEmpty(Field(body, "storyHighlights"))
      && out.0.body.aboutFounder == Trim(Field(body, "aboutFounder").value.s)
      && FindByUser(out.1, auth.value) == Some(out.0.body)
    ensures out.0.Done? ==>
      && |out.1| == |profiles| + (if FindByUser(profiles, auth.value).Some? then 0 else 1)
      && forall k :: 0 <= k < |profiles| && profiles[k].userId != auth.value ==> out.1[k] == profiles[k]
  {
    if auth.None? then (Refused(Unauthorized), profiles)
    else
      var about := Field(body, "aboutFounder");
      var niche := Field(body, "nicheCategoryId");
      if !NonEmptyString(about) || !Given(niche) then (Refused(BadRequest), profiles)
      else
        var highlights := StringsOrEmpty(Field(body, "storyHighlights"));
        var user := FindUser(users, auth.value);
        if user.None? || user.value.role != Founder then (Refused(Forbidden), profiles)
        else
          var nicheId := CastId(niche.value);
          if nicheId.None? then (Refused(ServerError), profiles)
          else
            var upserted := Upsert(profiles, user.value.id, OptionalString(Field(body, "brandName")), about.value.s,
                                   highlights, nicheId.value, OptionalString(Field(body, "region")), newId, now);
            (Done(Ok, upserted.0), upserted.1)
  }

  /**
   * `findOneAndUpdate({ userId }, update, { upsert: true, setDefaultsOnInsert: true })`: the owner's
   * first profile is updated in place, or a new one is appended. An `undefined` brandName or region
   * is dropped from the update and so keeps its stored value.
   */
  function Upsert(profiles: seq<FounderProfile>, uid: Id, brand: Option<string>, about: string,
                  highlights: seq<string>, nicheId: Id, region: Option<string>, newId: Id, now: Time)
    : (out: (FounderProfile, seq<FounderProfile>))
    ensures var prev := FindByUser(profiles, uid);
      && out.0.userId == uid && FindByUser(out.1, uid) == Some(out.0)
      && out.0.aboutFounder == Trim(about) && out.0.storyHighlights == highlights && out.0.nicheCategoryId == nicheId
      && out.0.brandName == (if brand.Some? then TrimOption(brand) else if prev.Some? then prev.value.brandName else None)
      && out.0.region == (if region.Some? then TrimOption(region) else if prev.Some? then prev.value.region else None)
      && (prev.Some? ==> out.0.id == prev.value.id && out.0.stats == prev.value.stats
                         && out.0.createdAt == prev.value.createdAt)
      && (prev.None? ==> out.0.id == newId && out.0.stats == ZeroStats && out.0.createdAt == now)
    ensures |out.1| == |profiles| + (if FindByUser(profiles, uid).Some? then 0 else 1)
    ensures forall k :: 0 <= k < |profiles| && profiles[k].userId != uid ==> out.1[k] == profiles[k]
  {
    match IndexOfUser(profiles, uid)
    case Some(i) =>
      var prev := profiles[i];
      var updated := prev.(
        brandName := if brand.Some? then TrimOption(brand) else prev.brandName,
        aboutFounder := Trim(about),
        storyHighlights := highlights,
        nicheCategoryId := nicheId,
        region := if region.Some? then TrimOption(region) else prev.region);
      var next := profiles[i := updated];
      assert FindByUser(next, uid) == Some(updated) by {
        assert IndexOfUser(next, uid) == Some(i) by {
          UpsertKeepsFirstOwner(profiles, next, uid, i);
        }
      }
      (updated, next)
    case None =>
      var created := NewProfile(newId, uid, brand, about, Some(highlights), nicheId, region, now);
      var next := profiles + [created];
      assert FindByUser(next, uid) == Some(created) by {
        assert IndexOfUser(next, uid) == Some(|profiles|) by {
          UpsertKeepsFirstOwner(profiles, next, uid, |profiles|);
        }
      }
      (created, next)
  }

  /** Replacing or appending the owner's profile at `i` keeps it the first profile of that owner. */
  lemma {:induction false} UpsertKeepsFirstOwner(profiles: seq<FounderProfile>, next: seq<FounderProfile>, uid: Id, i: nat)
    requires i < |next| && next[i].userId == uid
    requires forall k :: 0 <= k < i ==> k < |profiles| && profiles[k].userId != uid && next[k] == profiles[k]
    ensures IndexOfUser(next, uid) == Some(i)
    decreases i
  {
    if i > 0 {
      assert next[0].userId != uid;
      UpsertKeepsFirstOwner(profiles[1..], next[1..], uid, i - 1);
    }
  }

  /** The handler reads only `PostFields`: other keys, such as the `socialLinks` the profile form sends, are dropped. */
  lemma PostFounderIgnoresOtherFields(users: seq<User>, profiles: seq<FounderProfile>, auth: Option<Id>,
                                      b1: Body, b2: Body, newId: Id, now: Time)
    requires forall key :: key in PostFields ==> Field(b1, key) == Field(b2, key)
    ensures PostFounder(users, profiles, auth, b1, newId, now) == PostFounder(users, profiles, auth, b2, newId, now)
  {
    assert Field(b1, "aboutFounder") == Field(b2, "aboutFounder");
    assert Field(b1, "nicheCategoryId") == Field(b2, "nicheCategoryId");
    assert Field(b1, "storyHighlights") == Field(b2, "storyHighlights");
    assert Field(b1, "brandName") == Field(b2, "brandName");
    assert Field(b1, "region") == Field(b2, "region");
  }
}

=== FILE: json.dfy ===
/** JSON request bodies and the JavaScript/Mongoose conversions the handlers apply to them. */
module Json {
  import opened Common

  /** A parsed JSON value. Numbers are integers: fractions and NaN are not modelled. */
  datatype Json =
    | JNull
    | JBool(b: bool)
    | JNum(n: int)
    | JStr(s: string)
    | JArr(items: seq<Json>)
    | JObj(fields: map<string, Json>)

  /** A request body after `req.body || {}`: a missing key reads as `undefined`. */
  type Body = map<string, Json>

  function Field(body: Body, key: string): Option<Json> {
    if key in body then Some(body[key]) else None
  }

  /** JavaScript truthiness of a JSON value. */
  predicate Truthy(j: Json) {
    match j
    case JNull => false
    case JBool(b) => b
    case JNum(n) => n != 0
    case JStr(s) => s != ""
    case JArr(_) => true
    case JObj(_) => true
  }

  /** `!!x` for a value that may be `undefined`. */
  predicate Given(o: Option<Json>) {
    o.Some? && Truthy(o.value)
  }

  /** `x && typeof x === 'string'`: a non-empty string. */
  predicate NonEmptyString(o: Option<Json>) {
    o.Some? && o.value.JStr? && o.value.s != ""
  }

  lemma NonEmptyStringIsGiven(o: Option<Json>)
    ensures NonEmptyString(o) <==> Given(o) && o.value.JStr?
  {
  }

  /** `Array.isArray(x) && x.every((e) => typeof e === 'string')`. */
  predicate IsStringArray(o: Option<Json>) {
    o.Some? && o.value.JArr? && forall k :: 0 <= k < |o.value.items| ==> o.value.items[k].JStr?
  }

  function Strings(items: seq<Json>): seq<string>
    requires forall k :: 0 <= k < |items| ==> items[k].JStr?
  {
    if |items| == 0 then [] else [items[0].s] + Strings(items[1..])
  }

  /** The sanitiser shared by `storyHighlights` and `mediaUrls`: keep an all-strings array, else `[]`. */
  function StringsOrEmpty(o: Option<Json>): (r: seq<string>)
    ensures IsStringArray(o) ==> |r| == |o.value.items| && forall k :: 0 <= k < |r| ==> JStr(r[k]) == o.value.items[k]
    ensures !IsStringArray(o) ==> r == []
  {
    if IsStringArray(o) then StringsExact(o.value.items); Strings(o.value.items) else []
  }

  lemma {:induction false} StringsExact(items: seq<Json>)
    requires forall k :: 0 <= k < |items| ==> items[k].JStr?
    ensures |Strings(items)| == |items|
    ensures forall k :: 0 <= k < |items| ==> JStr(Strings(items)[k]) == items[k]
  {
    if |items| > 0 {
      StringsExact(items[1..]);
    }
  }

  /** The array of strings a client sends: the inverse of `StringsOrEmpty`. */
  function StringArray(xs: seq<string>): (r: Json)
    ensures r.JArr? && |r.items| == |xs|
  {
    JArr(seq(|xs|, k requires 0 <= k < |xs| => JStr(xs[k])))
  }

  lemma SanitiseStringArray(xs: seq<string>)
    ensures StringsOrEmpty(Some(StringArray(xs))) == xs
  {
    var o := Some(StringArray(xs));
    StringsExact(o.value.items);
  }

  function DigitChar(d: nat): char
    requires d < 10
  {
    "0123456789"[d]
  }

  function NatToString(n: nat): (r: string)
    ensures |r| >= 1
    decreases n
  {
    if n < 10 then [DigitChar(n)] else NatToString(n / 10) + [DigitChar(n % 10)]
  }

  function IntToString(n: int): string {
    if n < 0 then "-" + NatToString(-n) else NatToString(n)
  }

  /** JavaScript `String(x)`: total, never fails. */
  function JsString(j: Json): string
    decreases j, 1
  {
    match j
    case JNull => "null"
    case JBool(b) => if b then "true" else "false"
    case JNum(n) => IntToString(n)
    case JStr(s) => s
    case JArr(items) => JoinElements(j, items)
    case JObj(_) => "[object Object]"
  }

  /** `Array.prototype.join(',')`, where `null` elements print as the empty string. */
  function JoinElements(parent: Json, items: seq<Json>): string
    requires forall k :: 0 <= k < |items| ==> items[k] < parent
    decreases parent, 0, |items|
  {
    if |items| == 0 then ""
    else
      var head := if items[0].JNull? then "" else JsString(items[0]);
      if |items| == 1 then head else head + "," + JoinElements(parent, items[1..])
  }

  /** Mongoose's cast of a value to a `String` path: scalars convert, arrays and objects fail. */
  function CastString(j: Json): (r: Option<string>)
    ensures r.Some? <==> j.JStr? || j.JNum? || j.JBool?
    ensures j.JStr? ==> r == Some(j.s)
  {
    match j
    case JStr(s) => Some(s)
    case JNum(_) => Some(JsString(j))
    case JBool(_) => Some(JsString(j))
    case _ => None
  }

  /** Mongoose's cast of a value to an ObjectId path. The 24-hex-digit format is not checked. */
  function CastId(j: Json): (r: Option<Id>)
    ensures r.Some? <==> j.JStr?
  {
    if j.JStr? then Some(j.s) else None
  }
}

=== FILE: pagination.dfy ===
/**
 * Pagination arithmetic shared by the founders and stories list handlers
 * (pages/api/founders/index.ts and pages/api/stories/index.ts).
 */
module Pagination {
  import opened Common
  import opened Ranking

  /** The `{ items, page, totalPages }` answer of a list handler. */
  datatype ListPage<T> = ListPage(items: seq<T>, page: int, totalPages: int)

  const DefaultPage: int := 1
  const DefaultLimit: int := 10
  const MaxLimit: int := 50

  /**
   * `Math.max(parseInt(page) || 1, 1)`. The argument is the result of `parseInt`:
   * `None` stands for NaN, which is also what a missing parameter leads to once defaulted.
   */
  function ClampPage(p: Option<int>): (r: int)
    ensures r >= 1
    ensures p.Some? && p.value >= 1 ==> r == p.value
    ensures p.None? || p.value <= 1 ==> r == 1
  {
    var parsed := if p.Some? && p.value != 0 then p.value else DefaultPage;
    Max(parsed, 1)
  }

  /** `Math.min(Math.max(parseInt(limit) || 10, 1), 50)`. */
  function ClampLimit(l: Option<int>): (r: int)
    ensures 1 <= r <= MaxLimit
    ensures l.None? || l.value == 0 ==> r == DefaultLimit
    ensures l.Some? && l.value < 0 ==> r == 1
    ensures l.Some? && 1 <= l.value <= MaxLimit ==> r == l.value
    ensures l.Some? && l.value > MaxLimit ==> r == MaxLimit
  {
    var parsed := if l.Some? && l.value != 0 then l.value else DefaultLimit;
    Min(Max(parsed, 1), MaxLimit)
  }

  /** `(page - 1) * limit`: the number of matching documents before the requested page. */
  function Skip(page: int, limit: int): (r: int)
    requires page >= 1 && limit >= 1
    ensures r >= 0
    ensures page == 1 <==> r == 0
  {
    (page - 1) * limit
  }

  /** `Math.ceil(total / limit) || 1`. */
  function TotalPages(total: nat, limit: int): (r: int)
    requires limit >= 1
    ensures r >= 1
    ensures total == 0 ==> r == 1
    ensures total > 0 ==> (r - 1) * limit < total <= r * limit
  {
    var q := total / limit;
    var ceil := if total % limit == 0 then q else q + 1;
    assert total == q * limit + total % limit;
    if ceil == 0 then 1 else ceil
  }

  /** `.skip(Skip(page, limit)).limit(limit)` over an already sorted result. */
  function PageItems<T>(xs: seq<T>, page: int, limit: int): (r: seq<T>)
    requires page >= 1 && limit >= 1
    ensures |r| <= limit
    ensures forall k :: 0 <= k < |r| ==> Skip(page, limit) + k < |xs| && r[k] == xs[Skip(page, limit) + k]
    ensures r == [] <==> Skip(page, limit) >= |xs|
  {
    var s := Skip(page, limit);
    if s >= |xs| then [] else xs[s..Min(s + limit, |xs|)]
  }

  /** Every matching document is on exactly the page its position says, and that page is within `TotalPages`. */
  lemma PageOfItem<T>(xs: seq<T>, k: int, limit: int)
    requires 0 <= k < |xs| && limit >= 1
    ensures k / limit + 1 <= TotalPages(|xs|, limit)
    ensures var page := PageItems(xs, k / limit + 1, limit);
      k % limit < |page| && page[k % limit] == xs[k]
  {
    var p := k / limit + 1;
    assert k == (k / limit) * limit + k % limit;
    assert Skip(p, limit) == (k / limit) * limit;
    var t := TotalPages(|xs|, limit);
    assert (k / limit) * limit <= k < t * limit;
    MultiplyMonotone(t, k / limit, limit);
  }

  /** Walking pages 1 to `TotalPages` with a fixed limit reaches every document. */
  lemma EveryItemOnSomePage<T>(xs: seq<T>, x: T, limit: int) returns (page: int)
    requires x in xs && limit >= 1
    ensures 1 <= page <= TotalPages(|xs|, limit) && x in PageItems(xs, page, limit)
  {
    var k :| 0 <= k < |xs| && xs[k] == x;
    PageOfItem(xs, k, limit);
    page := k / limit + 1;
    var items := PageItems(xs, page, limit);
    assert items[k % limit] == x;
  }

  lemma MultiplyMonotone(a: int, b: int, c: int)
    requires c >= 0
    ensures a <= b ==> a * c <= b * c
  {
  }

  /** A page is non-empty exactly when it lies within `TotalPages`, except that an empty result still reports one page. */
  lemma PageNonEmptyIff<T>(xs: seq<T>, page: int, limit: int)
    requires page >= 1 && limit >= 1 && |xs| > 0
    ensures PageItems(xs, page, limit) != [] <==> page <= TotalPages(|xs|, limit)
  {
    var t := TotalPages(|xs|, limit);
    if page <= t {
      MultiplyMonotone(page - 1, t - 1, limit);
    } else {
      MultiplyMonotone(t, page - 1, limit);
    }
  }

  /** A page of a ranking of the matching documents holds matching documents only, keeps the order, and lies within `TotalPages`. */
  lemma RankedPage<T>(le: (T, T) -> bool, ranked: seq<T>, matching: seq<T>, page: int, limit: int)
    requires IsRanking(le, ranked, matching) && page >= 1 && limit >= 1
    ensures |ranked| == |matching|
    ensures var items := PageItems(ranked, page, limit);
      && (forall k :: 0 <= k < |items| ==> items[k] in matching)
      && SortedBy(le, items)
      && (items != [] ==> page <= TotalPages(|matching|, limit))
  {
    var items := PageItems(ranked, page, limit);
    assert |ranked| == |matching| by {
      assert |multiset(ranked)| == |multiset(matching)|;
    }
    forall k | 0 <= k < |items|
      ensures items[k] in matching
    {
      assert items[k] in multiset(ranked);
    }
    if items != [] {
      PageNonEmptyIff(ranked, page, limit);
    }
  }
}

=== FILE: profile_model.dfy ===
/** The `FounderProfile` document (models/FounderProfile.ts) and its denormalised `stats`. */
module ProfileModel {
  import opened Common
  import opened Text
  import Ranking

  datatype Stats = Stats(storyCount: int, followersCount: int, profileViews: int)

  const ZeroStats: Stats := Stats(0, 0, 0)

  datatype FounderProfile = FounderProfile(
    id: Id,
    userId: Id,
    brandName: Option<string>,
    aboutFounder: string,
    storyHighlights: seq<string>,
    nicheCategoryId: Id,
    region: Option<string>,
    stats: Stats,
    createdAt: Time)

  /** What the schema's setters and validators promise of a profile. */
  predicate SchemaValid(p: FounderProfile) {
    && p.aboutFounder != "" && IsTrimmed(p.aboutFounder)
    && (p.brandName.Some? ==> IsTrimmed(p.brandName.value))
    && (p.region.Some? ==> IsTrimmed(p.region.value))
    && p.stats.storyCount >= 0 && p.stats.followersCount >= 0 && p.stats.profileViews >= 0
  }

  function TrimOption(o: Option<string>): (r: Option<string>)
    ensures r.Some? <==> o.Some?
    ensures r.Some? ==> r.value == Trim(o.value)
  {
    if o.Some? then Some(Trim(o.value)) else None
  }

  /**
   * A profile inserted by an upsert: the trimming setters run and omitted paths take their
   * defaults (all counters 0, `storyHighlights` []). Validators do not run on this path.
   */
  function NewProfile(id: Id, userId: Id, brandName: Option<string>, aboutFounder: string,
                      storyHighlights: Option<seq<string>>, nicheCategoryId: Id,
                      region: Option<string>, now: Time): (p: FounderProfile)
    ensures p.stats.storyCount == 0 && p.stats.followersCount == 0 && p.stats.profileViews == 0
    ensures storyHighlights.None? ==> p.storyHighlights == []
    ensures storyHighlights.Some? ==> p.storyHighlights == storyHighlights.value
    ensures p.aboutFounder == Trim(aboutFounder) && IsTrimmed(p.aboutFounder)
    ensures p.id == id && p.userId == userId && p.nicheCategoryId == nicheCategoryId && p.createdAt == now
    ensures p.brandName == TrimOption(brandName) && p.region == TrimOption(region)
    ensures p.brandName.Some? ==> IsTrimmed(p.brandName.value)
    ensures p.region.Some? ==> IsTrimmed(p.region.value)
    ensures !AllSpace(aboutFounder) ==> SchemaValid(p)
  {
    FounderProfile(id, userId, TrimOption(brandName), Trim(aboutFounder),
                   storyHighlights.GetOr([]), nicheCategoryId, TrimOption(region), ZeroStats, now)
  }

  /** The first profile whose owner is `userId` (`findOne({ userId })`). */
  function FindByUser(profiles: seq<FounderProfile>, userId: Id): (r: Option<FounderProfile>)
    ensures r.Some? ==> r.value in profiles && r.value.userId == userId
    ensures r.None? ==> forall k :: 0 <= k < |profiles| ==> profiles[k].userId != userId
  {
    if |profiles| == 0 then None
    else if profiles[0].userId == userId then Some(profiles[0])
    else FindByUser(profiles[1..], userId)
  }

  /** The position of the first profile owned by `userId`: the document `findOneAndUpdate({ userId })` touches. */
  function IndexOfUser(profiles: seq<FounderProfile>, userId: Id): (r: Option<nat>)
    ensures r.Some? ==> r.value < |profiles| && profiles[r.value].userId == userId
    ensures r.Some? ==> forall k :: 0 <= k < r.value ==> profiles[k].userId != userId
    ensures r.None? ==> forall k :: 0 <= k < |profiles| ==> profiles[k].userId != userId
    ensures r.Some? <==> FindByUser(profiles, userId).Some?
    ensures r.Some? ==> FindByUser(profiles, userId) == Some(profiles[r.value])
  {
    if |profiles| == 0 then None
    else if profiles[0].userId == userId then Some(0)
    else
      var rest := IndexOfUser(profiles[1..], userId);
      if rest.Some? then Some(rest.value + 1) else None
  }

  /** `$inc: { 'stats.storyCount': 1 }` on the profile(s) with `_id == id`. */
  function BumpStoryCount(profiles: seq<FounderProfile>, id: Id): (r: seq<FounderProfile>)
    ensures |r| == |profiles|
    ensures forall k :: 0 <= k < |r| && profiles[k].id == id ==>
      r[k] == profiles[k].(stats := profiles[k].stats.(storyCount := profiles[k].stats.storyCount + 1))
    ensures forall k :: 0 <= k < |r| && profiles[k].id != id ==> r[k] == profiles[k]
  {
    seq(|profiles|, k requires 0 <= k < |profiles| =>
      var p := profiles[k];
      if p.id == id then p.(stats := p.stats.(storyCount := p.stats.storyCount + 1)) else p)
  }

  /** Sum of `stats.storyCount` over every profile with `_id == id`. */
  function StoryCountOf(profiles: seq<FounderProfile>, id: Id): int {
    if |profiles| == 0 then 0
    else (if profiles[0].id == id then profiles[0].stats.storyCount else 0) + StoryCountOf(profiles[1..], id)
  }

  /** Bumping a profile raises its story count by exactly one per profile with that id and leaves every other profile's count alone. */
  lemma {:induction false} BumpStoryCountExact(profiles: seq<FounderProfile>, id: Id, other: Id)
    requires forall i, j :: 0 <= i < j < |profiles| ==> profiles[i].id != profiles[j].id
    ensures StoryCountOf(BumpStoryCount(profiles, id), id) ==
      StoryCountOf(profiles, id) + (if exists k :: 0 <= k < |profiles| && profiles[k].id == id then 1 else 0)
    ensures other != id ==> StoryCountOf(BumpStoryCount(profiles, id), other) == StoryCountOf(profiles, other)
  {
    if |profiles| > 0 {
      var r := BumpStoryCount(profiles, id);
      assert r[1..] == BumpStoryCount(profiles[1..], id);
      BumpStoryCountExact(profiles[1..], id, other);
      if profiles[0].id == id {
        assert forall k :: 1 <= k < |profiles| ==> profiles[k].id != id;
        assert !exists k :: 0 <= k < |profiles[1..]| && profiles[1..][k].id == id;
      } else {
        assert (exists k :: 0 <= k < |profiles| && profiles[k].id == id) <==>
               (exists k :: 0 <= k < |profiles[1..]| && profiles[1..][k].id == id) by {
          forall k | 0 <= k < |profiles| && profiles[k].id == id
            ensures k >= 1 && profiles[1..][k - 1].id == id
          {
          }
        }
      }
    }
  }

  /** `createdAt: -1`: newer profiles first. */
  predicate NewerFirst(a: FounderProfile, b: FounderProfile) {
    a.createdAt >= b.createdAt
  }

  /** `{ 'stats.followersCount': -1, 'stats.storyCount': -1, createdAt: -1 }`: lexicographic, each key descending. */
  predicate TopFirst(a: FounderProfile, b: FounderProfile) {
    || a.stats.followersCount > b.stats.followersCount
    || (a.stats.followersCount == b.stats.followersCount
        && (|| a.stats.storyCount > b.stats.storyCount
            || (a.stats.storyCount == b.stats.storyCount && a.createdAt >= b.createdAt)))
  }

  lemma OrdersArePreorders()
    ensures Ranking.TotalPreorder(TopFirst)
    ensures Ranking.TotalPreorder(NewerFirst)
  {
  }
}

=== FILE: profile_page.dfy ===
/**
 * The pure logic of the profile editor (pages/me/profile.tsx): highlights shown one per line and
 * parsed back on submit, and the request body the form sends to the founders handler.
 */
module ProfilePage {
  import opened Common
  import opened Json
  import opened Text
  import opened Users
  import opened ProfileModel
  import FoundersApi

  /** The form state; every field may be `undefined`. */
  datatype ProfileForm = ProfileForm(
    brandName: Option<string>,
    aboutFounder: Option<string>,
    storyHighlights: Option<string>,
    nicheCategoryId: Option<string>,
    region: Option<string>,
    instagram: Option<string>,
    tiktok: Option<string>,
    linkedin: Option<string>)

  const Newline: char := '\n'

  /** Highlights the editor can show one per line and read back unchanged. */
  predicate CleanHighlights(hs: seq<string>) {
    forall k :: 0 <= k < |hs| ==> hs[k] != "" && IsTrimmed(hs[k]) && Newline !in hs[k]
  }

  /** `.map((h) => h.trim()).filter(Boolean)`. */
  function TrimAndDropEmpty(lines: seq<string>): (r: seq<string>)
    ensures |r| <= |lines|
    ensures forall k :: 0 <= k < |r| ==> r[k] != "" && IsTrimmed(r[k])
    ensures (forall j :: 0 <= j < |lines| ==> Newline !in lines[j]) ==> forall k :: 0 <= k < |r| ==> Newline !in r[k]
  {
    if |lines| == 0 then []
    else
      var t := Trim(lines[0]);
      (if t == "" then [] else [t]) + TrimAndDropEmpty(lines[1..])
  }

  /** `form.storyHighlights ? form.storyHighlights.split('\n').map(trim).filter(Boolean) : []`. */
  function ParseHighlights(s: Option<string>): (r: seq<string>)
    ensures s.None? || s.value == "" ==> r == []
    ensures CleanHighlights(r)
  {
    if s.None? || s.value == "" then []
    else
      TrimAndDropEmpty(Split(s.value, Newline))
  }

  /** `(mine.storyHighlights || []).join('\n')`. */
  function JoinHighlights(hs: seq<string>): string {
    Join(hs, Newline)
  }

  lemma {:induction false} TrimAndDropEmptyKeepsClean(hs: seq<string>)
    requires CleanHighlights(hs)
    ensures TrimAndDropEmpty(hs) == hs
  {
    if |hs| > 0 {
      TrimAndDropEmptyKeepsClean(hs[1..]);
      assert hs == [hs[0]] + hs[1..];
    }
  }

  /** Showing clean highlights one per line and parsing the text back gives the same highlights. */
  lemma HighlightsRoundTrip(hs: seq<string>)
    requires CleanHighlights(hs)
    ensures ParseHighlights(Some(JoinHighlights(hs))) == hs
  {
    if |hs| > 0 {
      assert JoinHighlights(hs) != "" by {
        if |hs| > 1 {
          assert |JoinHighlights(hs)| >= |hs[0]|;
        }
      }
      SplitJoin(hs, Newline);
      TrimAndDropEmptyKeepsClean(hs);
    }
  }

  /** Parsing is idempotent: saving, reloading and saving again stores the same highlights. */
  lemma HighlightsIdempotent(s: Option<string>)
    ensures ParseHighlights(Some(JoinHighlights(ParseHighlights(s)))) == ParseHighlights(s)
  {
    HighlightsRoundTrip(ParseHighlights(s));
  }

  // ---------------------------------------------------------------------------------------------
  // Loading and submitting

  /** The form `loadProfile` fills from the caller's profile; the schema has no `socialLinks`, so those stay empty. */
  function LoadForm(p: FounderProfile): (f: ProfileForm)
    ensures f.aboutFounder == Some(p.aboutFounder) && f.brandName == p.brandName && f.region == p.region
    ensures f.nicheCategoryId == Some(p.nicheCategoryId)
    ensures f.storyHighlights == Some(JoinHighlights(p.storyHighlights))
    ensures f.instagram.None? && f.tiktok.None? && f.linkedin.None?
  {
    ProfileForm(p.brandName, Some(p.aboutFounder), Some(JoinHighlights(p.storyHighlights)),
                Some(p.nicheCategoryId), p.region, None, None, None)
  }

  /** `loadProfile`: the caller's profile among the items of the founders list answer, if there. */
  function LoadFromList(items: seq<FounderProfile>, userId: Id): (r: Option<ProfileForm>)
    ensures r.Some? <==> FindByUser(items, userId).Some?
    ensures r.Some? ==> r.value == LoadForm(FindByUser(items, userId).value)
  {
    match FindByUser(items, userId)
    case None => None
    case Some(p) => Some(LoadForm(p))
  }

  /** A key set only when the value is defined: `JSON.stringify` drops `undefined`. */
  function Put(m: map<string, Json>, key: string, o: Option<string>): (r: map<string, Json>)
    ensures key in r <==> key in m || o.Some?
    ensures o.Some? ==> r[key] == JStr(o.value)
  {
    if o.Some? then m[key := JStr(o.value)] else m
  }

  /** `socialLinks: { instagram, tiktok, linkedin }`. */
  function SocialLinks(f: ProfileForm): (r: Json)
    ensures r.JObj?
    ensures forall k :: k in r.fields ==> k == "instagram" || k == "tiktok" || k == "linkedin"
    ensures "instagram" in r.fields <==> f.instagram.Some?
    ensures "tiktok" in r.fields <==> f.tiktok.Some?
    ensures "linkedin" in r.fields <==> f.linkedin.Some?
    ensures f.instagram.Some? ==> r.fields["instagram"] == JStr(f.instagram.value)
    ensures f.tiktok.Some? ==> r.fields["tiktok"] == JStr(f.tiktok.value)
    ensures f.linkedin.Some? ==> r.fields["linkedin"] == JStr(f.linkedin.value)
  {
    JObj(Put(Put(Put(map[], "instagram", f.instagram), "tiktok", f.tiktok), "linkedin", f.linkedin))
  }

  /** `JSON.stringify({ ...form })`: every defined form field under its own name. */
  function FormFields(f: ProfileForm): (m: map<string, Json>)
    ensures Field(m, "brandName") == (if f.brandName.Some? then Some(JStr(f.brandName.value)) else None)
    ensures Field(m, "aboutFounder") == (if f.aboutFounder.Some? then Some(JStr(f.aboutFounder.value)) else None)
    ensures Field(m, "nicheCategoryId") == (if f.nicheCategoryId.Some? then Some(JStr(f.nicheCategoryId.value)) else None)
    ensures Field(m, "region") == (if f.region.Some? then Some(JStr(f.region.value)) else None)
  {
    var others := Put(Put(Put(Put(map[], "storyHighlights", f.storyHighlights),
                              "instagram", f.instagram), "tiktok", f.tiktok), "linkedin", f.linkedin);
    Put(Put(Put(Put(others, "brandName", f.brandName), "aboutFounder", f.aboutFounder),
            "nicheCategoryId", f.nicheCategoryId), "region", f.region)
  }

  /** `JSON.stringify({ ...form, storyHighlights: highlights, socialLinks })` as the handler reads it. */
  function SubmitBody(f: ProfileForm): (b: Body)
    ensures Field(b, "storyHighlights") == Some(StringArray(ParseHighlights(f.storyHighlights)))
    ensures Field(b, "socialLinks") == Some(SocialLinks(f))
    ensures Field(b, "aboutFounder") == (if f.aboutFounder.Some? then Some(JStr(f.aboutFounder.value)) else None)
    ensures Field(b, "nicheCategoryId") == (if f.nicheCategoryId.Some? then Some(JStr(f.nicheCategoryId.value)) else None)
    ensures Field(b, "brandName") == (if f.brandName.Some? then Some(JStr(f.brandName.value)) else None)
    ensures Field(b, "region") == (if f.region.Some? then Some(JStr(f.region.value)) else None)
  {
    var base := FormFields(f);
    var highlights := StringArray(ParseHighlights(f.storyHighlights));
    var b := base["storyHighlights" := highlights]["socialLinks" := SocialLinks(f)];
    assert "storyHighlights" != "socialLinks";
    assert "storyHighlights" in b && b["storyHighlights"] == highlights;
    b
  }

  /** A saved profile holds exactly the highlights parsed from the text box. */
  lemma SubmitStoresParsedHighlights(users: seq<User>, profiles: seq<FounderProfile>, auth: Option<Id>,
                                     f: ProfileForm, newId: Id, now: Time)
    ensures var r := FoundersApi.PostFounder(users, profiles, auth, SubmitBody(f), newId, now).0;
      r.Done? ==> r.body.storyHighlights == ParseHighlights(f.storyHighlights)
  {
    SanitiseStringArray(ParseHighlights(f.storyHighlights));
  }

  /** Reloading a profile with clean highlights and saving the form untouched stores the same highlights. */
  lemma LoadThenSaveKeepsHighlights(p: FounderProfile)
    requires CleanHighlights(p.storyHighlights)
    ensures ParseHighlights(LoadForm(p).storyHighlights) == p.storyHighlights
  {
    HighlightsRoundTrip(p.storyHighlights);
  }

  /** Two forms that differ only in their social links send the same value for every key the founders handler reads. */
  lemma SameHandledFields(f: ProfileForm, g: ProfileForm)
    requires g == f.(instagram := g.instagram, tiktok := g.tiktok, linkedin := g.linkedin)
    ensures forall key :: key in FoundersApi.PostFields ==> Field(SubmitBody(f), key) == Field(SubmitBody(g), key)
  {
    assert f.storyHighlights == g.storyHighlights && f.aboutFounder == g.aboutFounder;
    assert f.brandName == g.brandName && f.nicheCategoryId == g.nicheCategoryId && f.region == g.region;
    forall key | key in FoundersApi.PostFields
      ensures Field(SubmitBody(f), key) == Field(SubmitBody(g), key)
    {
      assert key == "brandName" || key == "aboutFounder" || key == "storyHighlights"
          || key == "nicheCategoryId" || key == "region";
    }
  }

  /** The social links the form sends have no effect on what the founders handler answers or stores. */
  lemma SocialLinksAreIgnored(users: seq<User>, profiles: seq<FounderProfile>, auth: Option<Id>,
                              f: ProfileForm, g: ProfileForm, newId: Id, now: Time)
    requires g == f.(instagram := g.instagram, tiktok := g.tiktok, linkedin := g.linkedin)
    ensures FoundersApi.PostFounder(users, profiles, auth, SubmitBody(f), newId, now)
         == FoundersApi.PostFounder(users, profiles, auth, SubmitBody(g), newId, now)
  {
    SameHandledFields(f, g);
    FoundersApi.PostFounderIgnoresOtherFields(users, profiles, auth, SubmitBody(f), SubmitBody(g), newId, now);
  }
}

=== FILE: query.dfy ===
/** Query-string parameters and the equality filters the list handlers build from them. */
module Query {
  import opened Common

  /** The document paths a list filter may constrain. */
  datatype Path = NicheCategoryId | FounderProfileId | Region | Status

  /** A MongoDB equality filter: each present key must equal its value. */
  type Filter = map<Path, string>

  /** `req.query.x ? String(req.query.x) : undefined`: an empty parameter counts as absent. */
  predicate Supplied(o: Option<string>) {
    o.Some? && o.value != ""
  }

  /** `if (x) filter[field] = x`. */
  function AddIfSupplied(f: Filter, field: Path, o: Option<string>): (r: Filter)
    ensures field in r <==> field in f || Supplied(o)
    ensures Supplied(o) ==> r[field] == o.value
    ensures forall g :: g != field ==> (g in r <==> g in f)
    ensures forall g :: g != field && g in f ==> r[g] == f[g]
  {
    if Supplied(o) then f[field := o.value] else f
  }

  /** Keep, in order, the elements a predicate accepts (`find(filter)` before sorting). */
  function Select<T(!new)>(xs: seq<T>, accept: T -> bool): (r: seq<T>)
    ensures |r| <= |xs|
    ensures forall k :: 0 <= k < |r| ==> accept(r[k]) && r[k] in xs
    ensures forall x :: x in xs && accept(x) ==> x in r
    ensures multiset(r) <= multiset(xs)
    ensures forall x :: multiset(r)[x] == (if accept(x) then multiset(xs)[x] else 0)
  {
    if |xs| == 0 then []
    else
      var rest := Select(xs[1..], accept);
      assert multiset(xs) == multiset{xs[0]} + multiset(xs[1..]) by {
        assert xs == [xs[0]] + xs[1..];
      }
      assert forall x :: x in xs ==> x == xs[0] || x in xs[1..];
      if accept(xs[0]) then [xs[0]] + rest else rest
  }

  /** Selecting from a concatenation selects from each part and keeps the parts in order. */
  lemma {:induction false} SelectAppend<T(!new)>(xs: seq<T>, ys: seq<T>, accept: T -> bool)
    ensures Select(xs + ys, accept) == Select(xs, accept) + Select(ys, accept)
  {
    if |xs| > 0 {
      assert (xs + ys)[1..] == xs[1..] + ys;
      SelectAppend(xs[1..], ys, accept);
    } else {
      assert xs + ys == ys;
    }
  }
}

=== FILE: ranking.dfy ===
/**
 * Ordering of query results. A `.sort(spec)` of the document store is modelled by a comparator
 * `le(a, b)` meaning "a may come before b". The store fixes no order among ties, so the properties
 * below are stated for every ranking (a sorted permutation); `Sort` is one such ranking.
 */
module Ranking {

  ghost predicate TotalPreorder<T(!new)>(le: (T, T) -> bool) {
    && (forall a, b :: le(a, b) || le(b, a))
    && (forall a, b, c :: le(a, b) && le(b, c) ==> le(a, c))
  }

  predicate SortedBy<T>(le: (T, T) -> bool, s: seq<T>) {
    forall i, j :: 0 <= i < j < |s| ==> le(s[i], s[j])
  }

  /** `r` lists exactly the elements of `xs`, in an order that respects `le`. */
  ghost predicate IsRanking<T>(le: (T, T) -> bool, r: seq<T>, xs: seq<T>) {
    multiset(r) == multiset(xs) && SortedBy(le, r)
  }

  /** `r` is what `.sort(le).limit(k)` may return: the first `k` elements of some ranking of `xs`. */
  ghost predicate IsTop<T>(le: (T, T) -> bool, r: seq<T>, xs: seq<T>, k: nat) {
    && |r| == (if |xs| < k then |xs| else k)
    && multiset(r) <= multiset(xs)
    && SortedBy(le, r)
    && forall i, y :: 0 <= i < |r| && y in multiset(xs) - multiset(r) ==> le(r[i], y)
  }

  function Insert<T>(le: (T, T) -> bool, x: T, s: seq<T>): (r: seq<T>)
    ensures multiset(r) == multiset(s) + multiset{x}
  {
    if |s| == 0 then [x]
    else if le(x, s[0]) then [x] + s
    else
      assert s == [s[0]] + s[1..];
      [s[0]] + Insert(le, x, s[1..])
  }

  lemma {:induction false} InsertSorted<T(!new)>(le: (T, T) -> bool, x: T, s: seq<T>)
    requires TotalPreorder(le)
    requires SortedBy(le, s)
    ensures SortedBy(le, Insert(le, x, s))
  {
    if |s| == 0 {
    } else if le(x, s[0]) {
      var r := [x] + s;
      forall i, j | 0 <= i < j < |r|
        ensures le(r[i], r[j])
      {
        if i == 0 && j > 1 {
          assert le(s[0], s[j - 1]);
        }
      }
    } else {
      assert le(s[0], x);
      InsertSorted(le, x, s[1..]);
      var tail := Insert(le, x, s[1..]);
      var r := [s[0]] + tail;
      forall j | 0 <= j < |tail|
        ensures le(s[0], tail[j])
      {
        assert tail[j] in multiset(tail);
        assert tail[j] in multiset(s[1..]) + multiset{x};
        if tail[j] != x {
          assert tail[j] in s[1..];
          var m :| 0 <= m < |s[1..]| && s[1..][m] == tail[j];
          assert s[m + 1] == tail[j];
        }
      }
      forall i, j | 0 <= i < j < |r|
        ensures le(r[i], r[j])
      {
        if i == 0 {
          assert r[j] == tail[j - 1];
        } else {
          assert r[i] == tail[i - 1] && r[j] == tail[j - 1];
        }
      }
    }
  }

  /** A stable insertion sort: one ranking among those the store may produce. */
  function Sort<T(!new)>(le: (T, T) -> bool, xs: seq<T>): (r: seq<T>)
    requires TotalPreorder(le)
    ensures IsRanking(le, r, xs)
  {
    if |xs| == 0 then []
    else
      var rest := Sort(le, xs[1..]);
      InsertSorted(le, xs[0], rest);
      assert xs == [xs[0]] + xs[1..];
      Insert(le, xs[0], rest)
  }

  /** `.limit(k)`. */
  function Take<T>(s: seq<T>, k: nat): (r: seq<T>)
    ensures |r| == (if |s| < k then |s| else k)
    ensures r == s[..|r|]
  {
    if |s| <= k then s else s[..k]
  }

  /** Cutting any ranking after `k` elements yields a top-`k` selection. */
  lemma TakeOfRankingIsTop<T(!new)>(le: (T, T) -> bool, r: seq<T>, xs: seq<T>, k: nat)
    requires IsRanking(le, r, xs)
    ensures IsTop(le, Take(r, k), xs, k)
  {
    var t := Take(r, k);
    var u := r[|t|..];
    assert r == t + u;
    assert multiset(r) == multiset(t) + multiset(u);
    forall i, y | 0 <= i < |t| && y in multiset(xs) - multiset(t)
      ensures le(t[i], y)
    {
      assert y in multiset(u);
      var m :| 0 <= m < |u| && u[m] == y;
      assert r[|t| + m] == y;
    }
  }

  /** `.sort(le).limit(k)`. */
  function Top<T(!new)>(le: (T, T) -> bool, xs: seq<T>, k: nat): (r: seq<T>)
    requires TotalPreorder(le)
    ensures IsTop(le, r, xs, k)
  {
    var sorted := Sort(le, xs);
    TakeOfRankingIsTop(le, sorted, xs, k);
    Take(sorted, k)
  }

  /** A selection's elements all come from the input. */
  lemma TopMembers<T>(le: (T, T) -> bool, r: seq<T>, xs: seq<T>, k: nat)
    requires IsTop(le, r, xs, k)
    ensures forall i :: 0 <= i < |r| ==> r[i] in xs
  {
    forall i | 0 <= i < |r|
      ensures r[i] in xs
    {
      assert r[i] in multiset(r);
    }
  }
}

=== FILE: register_api.dfy ===
/** The registration handler (pages/api/auth/register.ts). */
module RegisterApi {
  import opened Common
  import opened Json
  import opened Text
  import opened Users

  /** `role && !ALLOWED_ROLES.includes(role)`: a truthy role that is not one of the three names. */
  predicate BadRole(role: Option<Json>) {
    Given(role) && (!role.value.JStr? || ParseRole(role.value.s).None?)
  }

  /** `role || 'supporter'`, once the role has passed validation. */
  function RequestedRole(role: Option<Json>): (r: Option<Role>)
    requires !BadRole(role)
    ensures Given(role) ==> r.Some? && RoleName(r.value) == role.value.s
    ensures !Given(role) ==> r.None?
  {
    if Given(role) then ParseRole(role.value.s) else None
  }

  /**
   * The handler. `passwordHash` is what `bcrypt.hash(password, 10)` returns; the signed token of
   * the reply is left out, and the user it returns is the `passwordHash`-free view.
   */
  function Register(verb: Method, users: seq<User>, body: Body, passwordHash: string,
                    newId: Id, now: Time): (out: (Reply<UserView>, seq<User>))
    ensures verb != Post ==> out.0 == Refused(MethodNotAllowed)
    ensures verb == Post && (|| !NonEmptyString(Field(body, "email"))
                               || !NonEmptyString(Field(body, "password"))
                               || !NonEmptyString(Field(body, "displayName"))
                               || BadRole(Field(body, "role")))
      ==> out.0 == Refused(BadRequest)
    ensures out.0.Refused? ==> out.1 == users
    ensures out.0 == Refused(Conflict) ==> EmailTaken(users, Lower(Trim(Field(body, "email").value.s)))
    ensures out.0.Done? ==>
      && verb == Post && out.0.status == Created
      && |out.1| == |users| + 1 && out.1[..|users|] == users
      && out.0.body == View(out.1[|users|])
      && out.0.body.email == Lower(Trim(Field(body, "email").value.s))
      && out.0.body.displayName == Trim(Field(body, "displayName").value.s)
      && out.0.body.role == (if Given(Field(body, "role")) then ParseRole(Field(body, "role").value.s).value else DefaultRole)
      && out.1[|users|].passwordHash == passwordHash
      && !EmailTaken(users, out.0.body.email)
  {
    if verb != Post then (Refused(MethodNotAllowed), users)
    else
      var email := Field(body, "email");
      var password := Field(body, "password");
      var name := Field(body, "displayName");
      var role := Field(body, "role");
      if !NonEmptyString(email) || !NonEmptyString(password) || !NonEmptyString(name) || BadRole(role) then
        (Refused(BadRequest), users)
      else
        LowerIdempotent(email.value.s);
        TrimLowerCommute(email.value.s);
        match CreateUser(users, newId, Lower(email.value.s), passwordHash, RequestedRole(role), name.value.s, now)
        case Failure(DuplicateKey) => (Refused(Conflict), users)
        case Failure(_) => (Refused(ServerError), users)
        case Success(next) => (Done(Created, View(next[|users|])), next)
  }

  /** A well-formed request for an unused email with a blank-free name succeeds, with the requested role or else supporter. */
  lemma RegisterSucceeds(users: seq<User>, body: Body, passwordHash: string, newId: Id, now: Time)
    requires NonEmptyString(Field(body, "email")) && !AllSpace(Field(body, "email").value.s)
    requires NonEmptyString(Field(body, "password")) && passwordHash != ""
    requires NonEmptyString(Field(body, "displayName")) && !AllSpace(Field(body, "displayName").value.s)
    requires !BadRole(Field(body, "role"))
    requires !EmailTaken(users, Lower(Trim(Field(body, "email").value.s)))
    ensures var out := Register(Post, users, body, passwordHash, newId, now);
      && out.0.Done? && out.0.body.id == newId
      && out.0.body.role == (if Given(Field(body, "role")) then ParseRole(Field(body, "role").value.s).value else Supporter)
  {
    var e := Field(body, "email").value.s;
    LowerIdempotent(e);
    TrimLowerCommute(e);
    LowerAllSpace(e);
  }

  /** Registering an email that some user already has, in any case and with any surrounding blanks, is answered 409. */
  lemma RegisterDuplicateIsConflict(users: seq<User>, body: Body, passwordHash: string, newId: Id, now: Time, i: int)
    requires NonEmptyString(Field(body, "email")) && !AllSpace(Field(body, "email").value.s)
    requires NonEmptyString(Field(body, "password")) && passwordHash != ""
    requires NonEmptyString(Field(body, "displayName")) && !AllSpace(Field(body, "displayName").value.s)
    requires !BadRole(Field(body, "role"))
    requires 0 <= i < |users| && users[i].email == Lower(Trim(Field(body, "email").value.s))
    ensures Register(Post, users, body, passwordHash, newId, now) == (Refused(Conflict), users)
  {
    var e := Field(body, "email").value.s;
    var name := Field(body, "displayName").value.s;
    LowerIdempotent(e);
    TrimLowerCommute(e);
    LowerAllSpace(e);
    assert Trim(Lower(Lower(e))) == Lower(Trim(e));
    assert EmailTaken(users, Trim(Lower(Lower(e)))) by {
      assert users[i].email == Trim(Lower(Lower(e)));
    }
    var r := CreateUser(users, newId, Lower(e), passwordHash, RequestedRole(Field(body, "role")), name, now);
    assert r == Failure(DuplicateKey);
  }

  /** Registration keeps the unique index on `email` intact. */
  lemma RegisterKeepsEmailsUnique(verb: Method, users: seq<User>, body: Body, passwordHash: string, newId: Id, now: Time)
    requires UniqueEmails(users)
    ensures UniqueEmails(Register(verb, users, body, passwordHash, newId, now).1)
  {
    var out := Register(verb, users, body, passwordHash, newId, now);
    if out.0.Done? {
      var role := Field(body, "role");
      CreateUserKeepsEmailsUnique(users, newId, Lower(Field(body, "email").value.s), passwordHash,
                                  RequestedRole(role), Field(body, "displayName").value.s, now);
    }
  }
}

=== FILE: relations.dfy ===
/**
 * `Follow` (models/Follow.ts) and `Like` (models/Like.ts): join records whose compound unique
 * index allows at most one record per ordered pair of ids. A collection is a sequence of records
 * in insertion order; the index is what `InsertUnique` enforces.
 */
module Relations {
  import opened Common

  datatype Pair = Pair(first: Id, second: Id)

  /** A user (`followerId`) following a founder profile (`followingId`). */
  datatype Follow = Follow(followerId: Id, followingId: Id, createdAt: Time)

  /** A user (`userId`) liking a story (`storyId`). */
  datatype Like = Like(storyId: Id, userId: Id, createdAt: Time)

  /** `{ followerId: 1, followingId: 1 }, { unique: true }`. */
  function FollowKey(f: Follow): Pair {
    Pair(f.followerId, f.followingId)
  }

  /** `{ storyId: 1, userId: 1 }, { unique: true }`. */
  function LikeKey(l: Like): Pair {
    Pair(l.storyId, l.userId)
  }

  predicate UniqueOn<T>(key: T -> Pair, s: seq<T>) {
    forall i, j :: 0 <= i < j < |s| ==> key(s[i]) != key(s[j])
  }

  predicate HasKey<T>(key: T -> Pair, s: seq<T>, p: Pair) {
    exists i :: 0 <= i < |s| && key(s[i]) == p
  }

  /** How many records carry the pair `p`. */
  function Occurrences<T>(key: T -> Pair, s: seq<T>, p: Pair): nat {
    if |s| == 0 then 0
    else (if key(s[0]) == p then 1 else 0) + Occurrences(key, s[1..], p)
  }

  /** Under the unique index, no pair is stored twice. */
  lemma {:induction false} AtMostOnePerPair<T>(key: T -> Pair, s: seq<T>, p: Pair)
    requires UniqueOn(key, s)
    ensures Occurrences(key, s, p) <= 1
    ensures Occurrences(key, s, p) == 1 <==> HasKey(key, s, p)
  {
    if |s| > 0 {
      AtMostOnePerPair(key, s[1..], p);
      assert HasKey(key, s, p) <==> key(s[0]) == p || HasKey(key, s[1..], p) by {
        if HasKey(key, s, p) && key(s[0]) != p {
          var i :| 0 <= i < |s| && key(s[i]) == p;
          assert key(s[1..][i - 1]) == p;
        }
        if HasKey(key, s[1..], p) {
          var i :| 0 <= i < |s[1..]| && key(s[1..][i]) == p;
          assert key(s[i + 1]) == p;
        }
      }
    }
  }

  /** An insert under the unique index: a clash is error 11000 and leaves the collection unchanged. */
  function InsertUnique<T>(key: T -> Pair, s: seq<T>, x: T): (r: Result<seq<T>, StoreError>)
    ensures r.Failure? <==> HasKey(key, s, key(x))
    ensures r.Failure? ==> r.error == DuplicateKey
    ensures r.Success? ==> r.value == s + [x]
    ensures r.Success? && UniqueOn(key, s) ==> UniqueOn(key, r.value)
  {
    if HasKey(key, s, key(x)) then Failure(DuplicateKey)
    else
      var t := s + [x];
      assert UniqueOn(key, s) ==> UniqueOn(key, t) by {
        if UniqueOn(key, s) {
          forall i, j | 0 <= i < j < |t|
            ensures key(t[i]) != key(t[j])
          {
            if j == |s| {
              assert t[i] == s[i];
            } else {
              assert t[i] == s[i] && t[j] == s[j];
            }
          }
        }
      }
      Success(t)
  }

  /** `Follow.create(...)`: both references are `required`; the pair must be new. */
  function CreateFollow(follows: seq<Follow>, followerId: Option<Id>, followingId: Option<Id>,
                        now: Time): (r: Result<seq<Follow>, StoreError>)
    ensures followerId.None? || followingId.None? ==> r == Failure(ValidationError)
    ensures followerId.Some? && followingId.Some? ==>
      (r.Success? <==> !HasKey(FollowKey, follows, Pair(followerId.value, followingId.value)))
    ensures r.Success? ==>
      r.value == follows + [Follow(followerId.value, followingId.value, now)]
    ensures r.Success? && UniqueOn(FollowKey, follows) ==> UniqueOn(FollowKey, r.value)
  {
    if followerId.None? || followingId.None? then Failure(ValidationError)
    else InsertUnique(FollowKey, follows, Follow(followerId.value, followingId.value, now))
  }

  /** `Like.create(...)`: both references are `required`; the pair must be new. */
  function CreateLike(likes: seq<Like>, storyId: Option<Id>, userId: Option<Id>,
                      now: Time): (r: Result<seq<Like>, StoreError>)
    ensures storyId.None? || userId.None? ==> r == Failure(ValidationError)
    ensures storyId.Some? && userId.Some? ==>
      (r.Success? <==> !HasKey(LikeKey, likes, Pair(storyId.value, userId.value)))
    ensures r.Success? ==>
      r.value == likes + [Like(storyId.value, userId.value, now)]
    ensures r.Success? && UniqueOn(LikeKey, likes) ==> UniqueOn(LikeKey, r.value)
  {
    if storyId.None? || userId.None? then Failure(ValidationError)
    else InsertUnique(LikeKey, likes, Like(storyId.value, userId.value, now))
  }

  /**
   * Uniqueness is on the pair only: a user who already follows `b` may still follow `c`,
   * even when `c` already has other followers.
   */
  lemma FollowUniquenessIsPerPair(follows: seq<Follow>, a: Id, b: Id, c: Id, d: Id, now: Time)
    requires b != c && d != a
    requires HasKey(FollowKey, follows, Pair(a, b)) && HasKey(FollowKey, follows, Pair(d, c))
    requires !HasKey(FollowKey, follows, Pair(a, c))
    ensures CreateFollow(follows, Some(a), Some(c), now).Success?
  {
  }

  /** Uniqueness is on the pair only: a user may like many stories and a story may have many likers. */
  lemma LikeUniquenessIsPerPair(likes: seq<Like>, s: Id, t: Id, u: Id, v: Id, now: Time)
    requires s != t && u != v
    requires HasKey(LikeKey, likes, Pair(s, u)) && HasKey(LikeKey, likes, Pair(t, v))
    requires !HasKey(LikeKey, likes, Pair(t, u))
    ensures CreateLike(likes, Some(t), Some(u), now).Success?
  {
  }

  /** Inserting a pair that is already present is refused and changes nothing. */
  lemma DuplicateFollowRefused(follows: seq<Follow>, a: Id, b: Id, now: Time)
    requires HasKey(FollowKey, follows, Pair(a, b))
    ensures CreateFollow(follows, Some(a), Some(b), now) == Failure(DuplicateKey)
  {
  }

  lemma DuplicateLikeRefused(likes: seq<Like>, s: Id, u: Id, now: Time)
    requires HasKey(LikeKey, likes, Pair(s, u))
    ensures CreateLike(likes, Some(s), Some(u), now) == Failure(DuplicateKey)
  {
  }
}

=== FILE: stories_api.dfy ===
/** The stories collection handler (pages/api/stories/index.ts): the paginated feed and story creation. */
module StoriesApi {
  import opened Common
  import opened Json
  import opened Text
  import opened Query
  import opened Pagination
  import opened Ranking
  import opened Users
  import opened StoryModel
  import ProfileModel

  datatype ListRequest = ListRequest(
    page: Option<int>,
    limit: Option<int>,
    niche: Option<string>,
    founderProfileId: Option<string>,
    region: Option<string>)

  /** The filter holds exactly the supplied keys among `nicheCategoryId`, `founderProfileId` and `region`. */
  function StoryFilter(q: ListRequest): (f: Filter)
    ensures NicheCategoryId in f <==> Supplied(q.niche)
    ensures FounderProfileId in f <==> Supplied(q.founderProfileId)
    ensures Region in f <==> Supplied(q.region)
    ensures Status !in f
    ensures NicheCategoryId in f ==> f[NicheCategoryId] == q.niche.value
    ensures FounderProfileId in f ==> f[FounderProfileId] == q.founderProfileId.value
    ensures Region in f ==> f[Region] == q.region.value
  {
    var f := AddIfSupplied(map[], NicheCategoryId, q.niche);
    var f := AddIfSupplied(f, FounderProfileId, q.founderProfileId);
    AddIfSupplied(f, Region, q.region)
  }

  /** Whether a story satisfies an equality filter. */
  predicate Matches(f: Filter, s: Story) {
    && (NicheCategoryId in f ==> s.nicheCategoryId == f[NicheCategoryId])
    && (FounderProfileId in f ==> s.founderProfileId == f[FounderProfileId])
    && (Region in f ==> s.region == Some(f[Region]))
    && (Status in f ==> StatusName(s.status) == f[Status])
  }

  /** Filtering on the built filter means: each supplied parameter must equal the story's field. */
  lemma StoryFilterSemantics(q: ListRequest, s: Story)
    ensures Matches(StoryFilter(q), s) <==>
      && (Supplied(q.niche) ==> s.nicheCategoryId == q.niche.value)
      && (Supplied(q.founderProfileId) ==> s.founderProfileId == q.founderProfileId.value)
      && (Supplied(q.region) ==> s.region == Some(q.region.value))
  {
  }

  /** All matching stories, newest first. */
  function Ranked(stories: seq<Story>, q: ListRequest): (r: seq<Story>)
    ensures IsRanking(NewerFirst, r, Select(stories, (s: Story) => Matches(StoryFilter(q), s)))
  {
    NewerFirstIsPreorder();
    Sort(NewerFirst, Select(stories, (s: Story) => Matches(StoryFilter(q), s)))
  }

  /** `handleGet`: `find(filter).sort({ createdAt: -1 }).skip(skip).limit(limit)` plus the page count. */
  function ListStories(stories: seq<Story>, q: ListRequest): (r: ListPage<Story>)
    ensures r.page >= 1 && r.totalPages >= 1
    ensures |r.items| <= ClampLimit(q.limit) <= MaxLimit
    ensures forall k :: 0 <= k < |r.items| ==> r.items[k] in stories && Matches(StoryFilter(q), r.items[k])
    ensures forall i, j :: 0 <= i < j < |r.items| ==> r.items[i].createdAt >= r.items[j].createdAt
    ensures r.items != [] ==> r.page <= r.totalPages
  {
    var page := ClampPage(q.page);
    var limit := ClampLimit(q.limit);
    var matching := Select(stories, (s: Story) => Matches(StoryFilter(q), s));
    var ranked := Ranked(stories, q);
    var items := PageItems(ranked, page, limit);
    RankedPage(NewerFirst, ranked, matching, page, limit);
    ListPage(items, page, TotalPages(|matching|, limit))
  }

  lemma ListStoriesUnfold(stories: seq<Story>, q: ListRequest)
    ensures ListStories(stories, q).page == ClampPage(q.page)
    ensures ListStories(stories, q).items == PageItems(Ranked(stories, q), ClampPage(q.page), ClampLimit(q.limit))
    ensures ListStories(stories, q).totalPages == TotalPages(|Ranked(stories, q)|, ClampLimit(q.limit))
  {
    var ranked := Ranked(stories, q);
    assert |multiset(ranked)| == |ranked|;
  }

  /** `countDocuments(filter)`: the page count is the number of matching stories divided by the limit, rounded up. */
  lemma TotalPagesCountsMatches(stories: seq<Story>, q: ListRequest)
    ensures var n := |Select(stories, (s: Story) => Matches(StoryFilter(q), s))|;
      ListStories(stories, q).totalPages == TotalPages(n, ClampLimit(q.limit))
  {
    var ranked := Ranked(stories, q);
    assert |multiset(ranked)| == |ranked|;
  }

  /** Walking pages 1 to `totalPages` with a fixed limit reaches every matching story. */
  lemma EveryMatchIsOnSomePage(stories: seq<Story>, q: ListRequest, x: Story)
    requires x in stories && Matches(StoryFilter(q), x)
    ensures exists p :: (1 <= p <= ListStories(stories, q).totalPages
      && x in ListStories(stories, q.(page := Some(p))).items)
  {
    var ranked := Ranked(stories, q);
    assert x in ranked by {
      var matching := Select(stories, (s: Story) => Matches(StoryFilter(q), s));
      assert x in matching;
      assert x in multiset(matching);
      assert x in multiset(ranked);
    }
    var p := EveryItemOnSomePage(ranked, x, ClampLimit(q.limit));
    ListStoriesUnfold(stories, q);
    OtherPage(stories, q, p);
  }

  lemma OtherPage(stories: seq<Story>, q: ListRequest, p: int)
    requires p >= 1
    ensures ListStories(stories, q.(page := Some(p))).items == PageItems(Ranked(stories, q), p, ClampLimit(q.limit))
  {
    assert Ranked(stories, q.(page := Some(p))) == Ranked(stories, q);
    ListStoriesUnfold(stories, q.(page := Some(p)));
  }

  /** The collections `handlePost` reads and writes. */
  datatype Db = Db(users: seq<User>, profiles: seq<ProfileModel.FounderProfile>, stories: seq<Story>)

  /** `region || founderProfile.region`: a truthy request region wins, else the profile's. */
  function StoryRegion(requested: Option<Json>, profile: ProfileModel.FounderProfile): (r: Option<Json>)
    ensures Given(requested) ==> r == requested
    ensures !Given(requested) && profile.region.None? ==> r.None?
    ensures !Given(requested) && profile.region.Some? ==> r == Some(JStr(profile.region.value))
  {
    if Given(requested) then requested
    else if profile.region.Some? then Some(JStr(profile.region.value))
    else None
  }

  /**
   * `handlePost`: authenticate, validate, sanitise `mediaUrls`, require a founder with a profile,
   * `Story.create`, then `$inc` the profile's `stats.storyCount`. A failure of `Story.create`
   * (a cast error or the `required` text check after trimming) is caught and answered 500.
   */
  function PostStory(db: Db, auth: Option<Id>, body: Body, newId: Id, now: Time): (out: (Reply<Story>, Db))
    ensures auth.None? ==> out.0 == Refused(Unauthorized)
    ensures auth.Some? && (!NonEmptyString(Field(body, "text")) || !Given(Field(body, "nicheCategoryId")))
      ==> out.0 == Refused(BadRequest)
    ensures auth.Some? && NonEmptyString(Field(body, "text")) && Given(Field(body, "nicheCategoryId"))
      && (FindUser(db.users, auth.value).None? || FindUser(db.users, auth.value).value.role != Founder)
      ==> out.0 == Refused(Forbidden)
    ensures auth.Some? && NonEmptyString(Field(body, "text")) && Given(Field(body, "nicheCategoryId"))
      && FindUser(db.users, auth.value).Some? && FindUser(db.users, auth.value).value.role == Founder
      && ProfileModel.FindByUser(db.profiles, auth.value).None?
      ==> out.0 == Refused(BadRequest)
    ensures out.0.Refused? ==> out.1 == db
    ensures out.0.Done? ==>
      && auth.Some? && out.0.status == Created
      && FindUser(db.users, auth.value).Some? && FindUser(db.users, auth.value).value.role == Founder
      && ProfileModel.FindByUser(db.profiles, auth.value).Some?
      && out.1 == db.(stories := db.stories + [out.0.body],
                      profiles := ProfileModel.BumpStoryCount(db.profiles, out.0.body.founderProfileId))
      && out.0.body.founderProfileId == ProfileModel.FindByUser(db.profiles, auth.value).value.id
      && out.0.body.authorId == auth.value
      && out.0.body.id == newId && out.0.body.createdAt == now
      && out.0.body.text == Trim(Field(body, "text").value.s)
      && out.0.body.mediaUrls == StringsOrEmpty(Field(body, "mediaUrls"))
      && out.0.body.likeCount == 0 && out.0.body.commentCount == 0 && out.0.body.viewCount == 0
      && out.0.body.status == Published
      && StoryModel.SchemaValid(out.0.body)
  {
    if auth.None? then (Refused(Unauthorized), db)
    else
      var text := Field(body, "text");
      var niche := Field(body, "nicheCategoryId");
      if !NonEmptyString(text) || !Given(niche) then (Refused(BadRequest), db)
      else
        var media := StringsOrEmpty(Field(body, "mediaUrls"));
        var user := FindUser(db.users, auth.value);
        if user.None? || user.value.role != Founder then (Refused(Forbidden), db)
        else
          var profile := ProfileModel.FindByUser(db.profiles, user.value.id);
          if profile.None? then (Refused(BadRequest), db)
          else
            var nicheId := CastId(niche.value);
            var region := StoryRegion(Field(body, "region"), profile.value);
            var regionText := if region.Some? then CastString(region.value) else Some("");
            if nicheId.None? || regionText.None? then (Refused(ServerError), db)
            else
              var storedRegion := if region.Some? then Some(regionText.value) else None;
              match NewStory(newId, user.value.id, profile.value.id, text.value.s, Some(media),
                             nicheId.value, storedRegion, now)
              case Failure(_) => (Refused(ServerError), db)
              case Success(story) =>
                (Done(Created, story),
                 db.(stories := db.stories + [story],
                     profiles := ProfileModel.BumpStoryCount(db.profiles, profile.value.id)))
  }

  /**
   * A created story takes the request region when one is given, else the founder profile's,
   * trimmed by the schema either way.
   */
  lemma PostStoryRegion(db: Db, auth: Option<Id>, body: Body, newId: Id, now: Time)
    ensures var out := PostStory(db, auth, body, newId, now).0;
      out.Done? ==>
      && auth.Some? && ProfileModel.FindByUser(db.profiles, auth.value).Some?
      && var story := out.body;
      var profile := ProfileModel.FindByUser(db.profiles, auth.value).value;
      && (Given(Field(body, "region")) && Field(body, "region").value.JStr? ==>
            story.region == Some(Trim(Field(body, "region").value.s)))
      && (!Given(Field(body, "region")) ==>
            story.region == ProfileModel.TrimOption(profile.region))
  {
    if PostStory(db, auth, body, newId, now).0.Done? {
      var profile := ProfileModel.FindByUser(db.profiles, auth.value).value;
      var region := StoryRegion(Field(body, "region"), profile);
      var regionText := if region.Some? then CastString(region.value) else Some("");
      assert regionText.Some?;
    }
  }

  /** A story created for a founder with unique profile ids raises that founder's story count by exactly 1 and no one else's. */
  lemma PostStoryBumpsStoryCountOnce(db: Db, auth: Option<Id>, body: Body, newId: Id, now: Time, other: Id)
    requires forall i, j :: 0 <= i < j < |db.profiles| ==> db.profiles[i].id != db.profiles[j].id
    ensures var out := PostStory(db, auth, body, newId, now);
      out.0.Done? ==>
      && auth.Some? && ProfileModel.FindByUser(db.profiles, auth.value).Some?
      && var id := ProfileModel.FindByUser(db.profiles, auth.value).value.id;
      && ProfileModel.StoryCountOf(out.1.profiles, id) == ProfileModel.StoryCountOf(db.profiles, id) + 1
      && (other != id ==> ProfileModel.StoryCountOf(out.1.profiles, other) == ProfileModel.StoryCountOf(db.profiles, other))
      && |out.1.stories| == |db.stories| + 1
  {
    var out := PostStory(db, auth, body, newId, now);
    if out.0.Done? {
      var p := ProfileModel.FindByUser(db.profiles, auth.value).value;
      var k :| 0 <= k < |db.profiles| && db.profiles[k] == p;
      ProfileModel.BumpStoryCountExact(db.profiles, p.id, other);
    }
  }

  /**
   * A story is created exactly when every check of the handler passes: a token, a text that is a
   * non-empty string and not only whitespace, a string niche id, a founder with a profile, and a
   * region that is absent or castable to a string.
   */
  lemma PostStorySucceeds(db: Db, auth: Option<Id>, body: Body, newId: Id, now: Time)
    ensures PostStory(db, auth, body, newId, now).0.Done? <==>
      && auth.Some?
      && NonEmptyString(Field(body, "text")) && !AllSpace(Field(body, "text").value.s)
      && Given(Field(body, "nicheCategoryId")) && Field(body, "nicheCategoryId").value.JStr?
      && FindUser(db.users, auth.value).Some? && FindUser(db.users, auth.value).value.role == Founder
      && ProfileModel.FindByUser(db.profiles, auth.value).Some?
      && (!Given(Field(body, "region")) || CastString(Field(body, "region").value).Some?)
  {
  }

  /** A founder without a profile is answered 400 and nothing is created or counted. */
  lemma PostStoryNeedsProfile(db: Db, auth: Id, body: Body, newId: Id, now: Time)
    requires NonEmptyString(Field(body, "text")) && Given(Field(body, "nicheCategoryId"))
    requires FindUser(db.users, auth).Some? && FindUser(db.users, auth).value.role == Founder
    requires ProfileModel.FindByUser(db.profiles, auth).None?
    ensures PostStory(db, Some(auth), body, newId, now) == (Refused(BadRequest), db)
  {
  }

  /** Text made only of whitespace passes the handler's check but fails `required` once trimmed: a 500 with nothing stored. */
  lemma BlankTextIsServerError(db: Db, auth: Id, body: Body, newId: Id, now: Time)
    requires NonEmptyString(Field(body, "text")) && AllSpace(Field(body, "text").value.s)
    requires Given(Field(body, "nicheCategoryId")) && Field(body, "nicheCategoryId").value.JStr?
    requires FindUser(db.users, auth).Some? && FindUser(db.users, auth).value.role == Founder
    requires ProfileModel.FindByUser(db.profiles, auth).Some?
    requires !Given(Field(body, "region")) || Field(body, "region").value.JStr?
    ensures PostStory(db, Some(auth), body, newId, now) == (Refused(ServerError), db)
  {
  }
}

=== FILE: story_model.dfy ===
/** The `Story` document (models/Story.ts): counters, status enum and what its schema does on insert. */
module StoryModel {
  import opened Common
  import opened Text
  import Ranking

  datatype Status = Published | Flagged | Removed

  function StatusName(s: Status): string {
    match s
    case Published => "published"
    case Flagged => "flagged"
    case Removed => "removed"
  }

  /** Membership in `['published', 'flagged', 'removed']`. */
  function ParseStatus(s: string): (r: Option<Status>)
    ensures r.Some? ==> StatusName(r.value) == s
    ensures r.None? ==> s != StatusName(Published) && s != StatusName(Flagged) && s != StatusName(Removed)
  {
    if s == "published" then Some(Published)
    else if s == "flagged" then Some(Flagged)
    else if s == "removed" then Some(Removed)
    else None
  }

  lemma ParseStatusName(s: Status)
    ensures ParseStatus(StatusName(s)) == Some(s)
  {
  }

  const DefaultStatus: Status := Published

  datatype Story = Story(
    id: Id,
    authorId: Id,
    founderProfileId: Id,
    text: string,
    mediaUrls: seq<string>,
    nicheCategoryId: Id,
    region: Option<string>,
    likeCount: int,
    commentCount: int,
    viewCount: int,
    status: Status,
    createdAt: Time)

  /** What the schema guarantees of a story it has validated. */
  predicate SchemaValid(s: Story) {
    && s.text != "" && IsTrimmed(s.text)
    && (s.region.Some? ==> IsTrimmed(s.region.value))
    && s.likeCount >= 0 && s.commentCount >= 0 && s.viewCount >= 0
  }

  /**
   * `Story.create({...})`: `text` and `region` are trimmed, omitted paths take their defaults
   * (counters 0, `mediaUrls` [], status published), then `required` is checked on the trimmed text.
   */
  function NewStory(id: Id, authorId: Id, founderProfileId: Id, text: string,
                    mediaUrls: Option<seq<string>>, nicheCategoryId: Id, region: Option<string>,
                    now: Time): (r: Result<Story, StoreError>)
    ensures r.Failure? <==> AllSpace(text)
    ensures r.Failure? ==> r.error == ValidationError
    ensures r.Success? ==>
      && r.value.likeCount == 0 && r.value.commentCount == 0 && r.value.viewCount == 0
      && r.value.status == Published
      && r.value.text == Trim(text)
      && (mediaUrls.None? ==> r.value.mediaUrls == [])
      && (mediaUrls.Some? ==> r.value.mediaUrls == mediaUrls.value)
      && r.value.id == id && r.value.authorId == authorId
      && r.value.founderProfileId == founderProfileId && r.value.nicheCategoryId == nicheCategoryId
      && (region.Some? <==> r.value.region.Some?)
      && (region.Some? ==> r.value.region.value == Trim(region.value))
      && r.value.createdAt == now
      && SchemaValid(r.value)
  {
    var storedText := Trim(text);
    var storedRegion := if region.Some? then Some(Trim(region.value)) else None;
    if storedText == "" then Failure(ValidationError)
    else Success(Story(id, authorId, founderProfileId, storedText, mediaUrls.GetOr([]),
                       nicheCategoryId, storedRegion, 0, 0, 0, DefaultStatus, now))
  }

  function FindStory(stories: seq<Story>, id: Id): (r: Option<Story>)
    ensures r.Some? ==> r.value in stories && r.value.id == id
    ensures r.None? ==> forall k :: 0 <= k < |stories| ==> stories[k].id != id
  {
    if |stories| == 0 then None
    else if stories[0].id == id then Some(stories[0])
    else FindStory(stories[1..], id)
  }

  /** `createdAt: -1`: newer stories first. */
  predicate NewerFirst(a: Story, b: Story) {
    a.createdAt >= b.createdAt
  }

  lemma NewerFirstIsPreorder()
    ensures Ranking.TotalPreorder(NewerFirst)
  {
  }
}

=== FILE: text.dfy ===
/** ASCII string helpers: JavaScript's `trim`, `toLowerCase`, `toUpperCase`, `split` and `join`. */
module Text {

  /** The ASCII whitespace `String.prototype.trim` removes: space, tab, LF, VT, FF, CR. */
  predicate IsSpace(c: char) {
    c == ' ' || ('\t' <= c <= '\r')
  }

  predicate AllSpace(s: string) {
    forall k :: 0 <= k < |s| ==> IsSpace(s[k])
  }

  /** Neither end of `s` is whitespace. */
  predicate IsTrimmed(s: string) {
    |s| == 0 || (!IsSpace(s[0]) && !IsSpace(s[|s| - 1]))
  }

  function TrimStart(s: string): (r: string)
    ensures |r| <= |s| && r == s[|s| - |r|..]
    ensures AllSpace(s[..|s| - |r|])
    ensures |r| > 0 ==> !IsSpace(r[0])
  {
    if |s| > 0 && IsSpace(s[0]) then TrimStart(s[1..]) else s
  }

  function TrimEnd(s: string): (r: string)
    ensures |r| <= |s| && r == s[..|r|]
    ensures AllSpace(s[|r|..])
    ensures |r| > 0 ==> !IsSpace(r[|r| - 1])
  {
    if |s| > 0 && IsSpace(s[|s| - 1]) then TrimEnd(s[..|s| - 1]) else s
  }

  /** `s.trim()`: the longest infix of `s` with no whitespace at either end. */
  function Trim(s: string): (r: string)
    ensures IsTrimmed(r)
    ensures IsTrimmed(s) ==> r == s
    ensures r == "" <==> AllSpace(s)
    ensures forall c :: c in r ==> c in s
  {
    var t := TrimStart(s);
    var r := TrimEnd(t);
    assert r == "" ==> AllSpace(s) by {
      if r == "" {
        assert AllSpace(s[..|s| - |t|]) && AllSpace(t);
        assert s == s[..|s| - |t|] + t;
      }
    }
    assert forall c :: c in r ==> c in t;
    r
  }

  lemma TrimIdempotent(s: string)
    ensures Trim(Trim(s)) == Trim(s)
  {
  }

  function LowerChar(c: char): (r: char)
    ensures !('A' <= r <= 'Z')
    ensures IsSpace(r) <==> IsSpace(c)
  {
    if 'A' <= c <= 'Z' then (c as int + 32) as char else c
  }

  function UpperChar(c: char): (r: char)
    ensures !('a' <= r <= 'z')
  {
    if 'a' <= c <= 'z' then (c as int - 32) as char else c
  }

  /** `s.toLowerCase()` over ASCII letters. */
  function Lower(s: string): (r: string)
    ensures |r| == |s|
    ensures forall k :: 0 <= k < |r| ==> !('A' <= r[k] <= 'Z')
  {
    seq(|s|, k requires 0 <= k < |s| => LowerChar(s[k]))
  }

  lemma LowerIdempotent(s: string)
    ensures Lower(Lower(s)) == Lower(s)
  {
  }

  lemma LowerAllSpace(s: string)
    ensures AllSpace(Lower(s)) <==> AllSpace(s)
  {
    assert forall k :: 0 <= k < |s| ==> Lower(s)[k] == LowerChar(s[k]);
  }

  lemma {:induction false} TrimStartLower(s: string)
    ensures TrimStart(Lower(s)) == Lower(TrimStart(s))
    decreases |s|
  {
    if |s| > 0 && IsSpace(s[0]) {
      assert Lower(s)[1..] == Lower(s[1..]);
      TrimStartLower(s[1..]);
    }
  }

  lemma {:induction false} TrimEndLower(s: string)
    ensures TrimEnd(Lower(s)) == Lower(TrimEnd(s))
    decreases |s|
  {
    if |s| > 0 && IsSpace(s[|s| - 1]) {
      assert Lower(s)[..|s| - 1] == Lower(s[..|s| - 1]);
      TrimEndLower(s[..|s| - 1]);
    }
  }

  /** Lower-casing and trimming commute, so the order in which they are applied does not matter. */
  lemma TrimLowerCommute(s: string)
    ensures Trim(Lower(s)) == Lower(Trim(s))
  {
    TrimStartLower(s);
    TrimEndLower(TrimStart(s));
  }

  /** `s.split(sep)` with a one-character separator: always at least one piece, none containing `sep`. */
  function Split(s: string, sep: char): (r: seq<string>)
    ensures |r| >= 1
    ensures forall k :: 0 <= k < |r| ==> sep !in r[k]
    ensures Join(r, sep) == s
  {
    if |s| == 0 then [""]
    else
      var rest := Split(s[1..], sep);
      if s[0] == sep then
        assert Join([""] + rest, sep) == [sep] + Join(rest, sep);
        [""] + rest
      else
        var r := [[s[0]] + rest[0]] + rest[1..];
        assert Join(r, sep) == [s[0]] + Join(rest, sep) by {
          if |rest| > 1 {
            assert rest == [rest[0]] + rest[1..];
          }
        }
        r
  }

  /** `xs.join(sep)`. */
  function Join(xs: seq<string>, sep: char): string {
    if |xs| == 0 then ""
    else if |xs| == 1 then xs[0]
    else xs[0] + [sep] + Join(xs[1..], sep)
  }

  lemma {:induction false} SplitSeparatorFree(a: string, sep: char)
    requires sep !in a
    ensures Split(a, sep) == [a]
    decreases |a|
  {
    if |a| > 0 {
      SplitSeparatorFree(a[1..], sep);
    }
  }

  lemma {:induction false} SplitAfterPiece(a: string, t: string, sep: char)
    requires sep !in a
    ensures Split(a + [sep] + t, sep) == [a] + Split(t, sep)
    decreases |a|
  {
    if |a| > 0 {
      assert (a + [sep] + t)[1..] == a[1..] + [sep] + t;
      assert (a + [sep] + t)[0] == a[0] && a[0] in a;
      SplitAfterPiece(a[1..], t, sep);
      assert [a[0]] + a[1..] == a;
    } else {
      assert a + [sep] + t == [sep] + t;
      assert ([sep] + t)[1..] == t;
    }
  }

  /** Joining separator-free pieces and splitting again gives the pieces back. */
  lemma {:induction false} SplitJoin(xs: seq<string>, sep: char)
    requires |xs| >= 1
    requires forall k :: 0 <= k < |xs| ==> sep !in xs[k]
    ensures Split(Join(xs, sep), sep) == xs
    decreases |xs|
  {
    if |xs| == 1 {
      SplitSeparatorFree(xs[0], sep);
    } else {
      SplitJoin(xs[1..], sep);
      SplitAfterPiece(xs[0], Join(xs[1..], sep), sep);
    }
  }
}

=== FILE: users.dfy ===
/** The `User` document (User.ts) and what its schema does on insert. */
module Users {
  import opened Common
  import opened Text

  datatype Role = Founder | Supporter | Admin

  function RoleName(r: Role): string {
    match r
    case Founder => "founder"
    case Supporter => "supporter"
    case Admin => "admin"
  }

  /** Membership in the role enum `['founder', 'supporter', 'admin']`. */
  function ParseRole(s: string): (r: Option<Role>)
    ensures r.Some? ==> RoleName(r.value) == s
    ensures r.None? ==> s != RoleName(Founder) && s != RoleName(Supporter) && s != RoleName(Admin)
  {
    if s == "founder" then Some(Founder)
    else if s == "supporter" then Some(Supporter)
    else if s == "admin" then Some(Admin)
    else None
  }

  lemma ParseRoleName(r: Role)
    ensures ParseRole(RoleName(r)) == Some(r)
  {
  }

  const DefaultRole: Role := Supporter

  datatype User = User(
    id: Id,
    email: string,
    passwordHash: string,
    role: Role,
    displayName: string,
    createdAt: Time)

  /** A user as a default read returns it: `passwordHash` is `select: false`. */
  datatype UserView = UserView(id: Id, email: string, role: Role, displayName: string, createdAt: Time)

  function View(u: User): (v: UserView)
    ensures v.id == u.id && v.email == u.email && v.role == u.role
    ensures v.displayName == u.displayName && v.createdAt == u.createdAt
  {
    UserView(u.id, u.email, u.role, u.displayName, u.createdAt)
  }

  /** What the schema guarantees of every stored user. */
  predicate SchemaValid(u: User) {
    && u.email != "" && IsTrimmed(u.email) && Lower(u.email) == u.email
    && u.passwordHash != ""
    && u.displayName != "" && IsTrimmed(u.displayName)
  }

  /** The unique index on `email`. */
  predicate UniqueEmails(users: seq<User>) {
    forall i, j :: 0 <= i < j < |users| ==> users[i].email != users[j].email
  }

  predicate EmailTaken(users: seq<User>, email: string) {
    exists i :: 0 <= i < |users| && users[i].email == email
  }

  function FindUser(users: seq<User>, id: Id): (r: Option<User>)
    ensures r.Some? ==> r.value in users && r.value.id == id
    ensures r.None? ==> forall k :: 0 <= k < |users| ==> users[k].id != id
  {
    if |users| == 0 then None
    else if users[0].id == id then Some(users[0])
    else FindUser(users[1..], id)
  }

  /**
   * `User.create(...)`: the `lowercase`/`trim` setters run first, then the `required`
   * validators, then the insert, which the unique index on `email` may refuse.
   */
  function CreateUser(users: seq<User>, id: Id, email: string, passwordHash: string,
                      role: Option<Role>, displayName: string, now: Time): (r: Result<seq<User>, StoreError>)
    ensures r.Success? <==>
      && !AllSpace(email) && passwordHash != "" && !AllSpace(displayName)
      && !EmailTaken(users, Trim(Lower(email)))
    ensures r.Failure? && r.error == DuplicateKey ==> EmailTaken(users, Trim(Lower(email)))
    ensures !AllSpace(email) && passwordHash != "" && !AllSpace(displayName) && EmailTaken(users, Trim(Lower(email)))
      ==> r == Failure(DuplicateKey)
    ensures r.Success? ==> |r.value| == |users| + 1 && r.value[..|users|] == users
    ensures r.Success? ==>
      var u := r.value[|users|];
      && u.email == Lower(Trim(email)) && u.displayName == Trim(displayName)
      && u.role == role.GetOr(DefaultRole) && u.passwordHash == passwordHash
      && SchemaValid(u)
  {
    var storedEmail := Trim(Lower(email));
    var storedName := Trim(displayName);
    TrimLowerCommute(email);
    LowerIdempotent(Trim(email));
    LowerAllSpace(email);
    if storedEmail == "" || passwordHash == "" || storedName == "" then Failure(ValidationError)
    else if EmailTaken(users, storedEmail) then Failure(DuplicateKey)
    else
      var u := User(id, storedEmail, passwordHash, role.GetOr(DefaultRole), storedName, now);
      assert (users + [u])[|users|] == u && (users + [u])[..|users|] == users;
      Success(users + [u])
  }

  /** The unique index on `email` is never violated by an insert. */
  lemma CreateUserKeepsEmailsUnique(users: seq<User>, id: Id, email: string, passwordHash: string,
                                    role: Option<Role>, displayName: string, now: Time)
    requires UniqueEmails(users)
    ensures var r := CreateUser(users, id, email, passwordHash, role, displayName, now);
      r.Success? ==> UniqueEmails(r.value)
  {
    var r := CreateUser(users, id, email, passwordHash, role, displayName, now);
    if r.Success? {
      var u := r.value[|users|];
      forall i, j | 0 <= i < j < |r.value|
        ensures r.value[i].email != r.value[j].email
      {
        if j == |users| {
          assert r.value[i] == users[i];
        } else {
          assert r.value[i] == users[i] && r.value[j] == users[j];
        }
      }
    }
  }
}
